=== FILE: README.md ===
# Endless road streamer and water grid, modelled in Dafny

This project models the geometric core of a Unity endless-road prototype. It has three parts.

- **Catmull-Rom road generator (`RoadGeneratorCatmull`).** It keeps an append-only list of control points and a span cursor. The list is seeded with four collinear points. A new point is a random step from the last point, turned by a random yaw, at a random height clamped to a global band. Building span `c` uses points `c-1 .. c+2`, and missing points are appended first. Each span becomes one road segment.
- **Bezier road generator (`RoadGenerator`).** Each segment is a cubic Bezier. It starts at the previous segment's end, heads along that segment's unit end tangent, and has randomly perturbed control points.
- **Water grid builder (`PCGWATER.GenerateWaterMesh`).** It builds an `(gx+1) x (gz+1)` vertex grid with UVs over the unit square and two triangles per cell.

Both road generators share a per-frame window policy: create a segment at the back when the observer nears the last end, and retire the front segment when the observer is far past its end. They also share one tessellation: a span sampled `subdiv + 1` times becomes a quad strip of left/right vertex pairs, with UVs `(0, t)` and `(1, t)`.

## Structure of the model

| module | file | contents |
|---|---|---|
| `Vectors` | vectors.dfy | Real 3-vectors. `normalized` is `Scale(invLen(v), v)`, with `invLen` left uninterpreted. |
| `CatmullRom` | catmull_rom.dfy | Catmull-Rom position and derivative; endpoint identities; derivative, linear precision and reversal lemmas. |
| `Bezier` | bezier.dfy | Bernstein-form Bezier point and derivative. An independent de Casteljau reference. The Catmull-Rom span as a Bezier. |
| `Ribbon` | ribbon.dfy | The tessellation loop `BuildRibbon`, proved equal to the closed form `RibbonMesh`; layout and index facts. |
| `Segments` | segments.dfy | The segment record, the engine services passed in, the chaining predicate and the FIFO window step. |
| `CatmullRoad` | catmull_road.dfy | Control-point appending, the span cursor, `Start`/`CreateNextSegment`/`Update`, and the streamer invariant `Valid`. |
| `BezierRoad` | bezier_road.dfy | Control-point choice, segment records, `Start`/`CreateNextSegment`/`Update`, and the invariant that the window is chained and level. |
| `Water` | water.dfy | The builder's two passes over arrays. The closed form `WaterGrid`, the grid predicates, and index, winding and UV lemmas. |

The generators' state is an immutable value, and each per-frame step is a method returning the next state. Engine services are fields of an `Engine` value: inverse length, cosine and sine in degrees, and distance. Random numbers arrive as explicit draws whose ranges are preconditions. The Catmull-Rom steps report how many draws they consumed, one per appended control point. `CatmullRoad.AppendAll` is the reference for what those draws produce: one `AddControlPoint` per draw, in draw order. A Bezier step takes its draws as given: `Start` uses one per segment, and `Update` uses its single draw only when it creates a segment.

## Model

| member | source | states |
|---|---|---|
| Vectors.Cross | Assets/RoadManager/CatmullRomRoad.cs:220 | The cross product used for the left vector is orthogonal to both of its arguments. |
| CatmullRom.CatmullRomPos | Assets/RoadManager/CatmullRomRoad.cs:267-277 | The span interpolates its inner control points: position at `t = 0` is `p1` and at `t = 1` is `p2`. |
| CatmullRom.CatmullRomTangent | Assets/RoadManager/CatmullRomRoad.cs:282-290 | The tangent at `t = 0` is `(p2 - p0) / 2` and at `t = 1` is `(p3 - p1) / 2`. |
| CatmullRom.CubicSlopeIsDerivative | Assets/RoadManager/CatmullRomRoad.cs:267-290 | The tangent formula is the derivative of the position formula. A first-order step from `t` misses the position at `t + h` by exactly `h^2` times a polynomial, coordinate by coordinate. |
| CatmullRom.StraightSpan | Assets/RoadManager/CatmullRomRoad.cs:267-290 | Linear precision: four equally spaced collinear points give the straight segment `p1 + t d`, with constant tangent `d`. |
| CatmullRom.Reversal | Assets/RoadManager/CatmullRomRoad.cs:267-277 | Reversing the four control points traverses the same span backwards: `pos(p3, p2, p1, p0, 1 - t) = pos(p0, p1, p2, p3, t)`. |
| Ribbon.SampleT | Assets/RoadManager/CatmullRomRoad.cs:211-215 | Sample parameters run from exactly 0 at the first sample to exactly 1 at the last, and stay within [0, 1]. |
| Ribbon.LeftOffset | Assets/RoadManager/CatmullRomRoad.cs:217-220 | The left offset is horizontal and perpendicular to the sample's tangent. |
| Ribbon.StripIndices | Assets/RoadManager/CatmullRomRoad.cs:234-248 | A strip of `n` quads has `6n` indices, each naming one of its `2n + 2` vertices. |
| Ribbon.RibbonMesh | Assets/RoadManager/CatmullRomRoad.cs:213-248 | The mesh has `2(subdiv + 1)` vertices and as many UVs, and `6 subdiv` triangle indices, all in range. A negative count runs no sample and gives an empty mesh. |
| Ribbon.RibbonLayout | Assets/RoadManager/CatmullRomRoad.cs:222-231 | Sample `i` has its left vertex at slot `2i` with UV `(0, t)` and its right vertex at `2i + 1` with UV `(1, t)`. The pair is symmetric about the centre point and at the centre's height. |
| Ribbon.CrossSectionWidth | Assets/RoadManager/CatmullRomRoad.cs:220-223 | When the normalised cross direction has unit length, the two vertices of a sample are exactly the road width apart. |
| Ribbon.StripQuad | Assets/RoadManager/CatmullRomRoad.cs:234-248 | Quad `q` occupies index slots `6q .. 6q + 6`, and holds its two triangles there. |
| Ribbon.QuadUsesItsCorners | Assets/RoadManager/CatmullRomRoad.cs:236-247 | A quad's two triangles use exactly the four vertices `2q .. 2q + 3`, and both contain the diagonal `2q + 1`–`2q + 2`. |
| Ribbon.SampleTriangles | Assets/RoadManager/CatmullRomRoad.cs:234-248 | The triangles emitted with sample `i = q + 1` reference only, and all of, `{2i - 2, 2i - 1, 2i, 2i + 1}`. Both triangles share the diagonal. |
| Ribbon.StripCoversVertices | Assets/RoadManager/CatmullRomRoad.cs:234-248 | With at least one quad, every vertex of the strip is used by some triangle. |
| Ribbon.ExtendLayout | Assets/RoadManager/CatmullRomRoad.cs:222-231 | Appending one sample's vertex pair and UV pair extends a correct prefix of the layout by two slots. |
| Ribbon.BuildRibbon | Assets/RoadManager/CatmullRomRoad.cs:207-255 | The tessellation loop produces exactly the closed-form mesh `RibbonMesh`, with `2(subdiv + 1)` vertices and UVs and `6 subdiv` indices, or no buffers at all for a negative count. |
| Segments.WindowStepChained | Assets/RoadManager/RoadGenerator.cs:84-90 | Appending a segment that starts at the last end, and retiring from the front, keep a window chained end to start. |
| CatmullRoad.Clamp | Assets/RoadManager/CatmullRomRoad.cs:189 | On a proper band the clamped height lies in the band, and a height already inside is unchanged. |
| CatmullRoad.RotateY | Assets/RoadManager/CatmullRomRoad.cs:181-182 | The yaw keeps the height, turns forward to `(sin, 0, cos)`, is the identity when the turn's cosine is 1 and its sine 0, and keeps horizontal length when `cos^2 + sin^2 = 1`. |
| CatmullRoad.AddControlPoint | Assets/RoadManager/CatmullRomRoad.cs:167-197 | Exactly one point is appended and earlier points are unchanged. Its height lies in the global band when the band is proper. The reported height offset is `newY - last.y`, and the distance and angle reported are the drawn ones. |
| CatmullRoad.StraightContinuation | Assets/RoadManager/CatmullRomRoad.cs:174-185 | When the turn's cosine is 1 and its sine 0, the new point continues the line through the last two points: its horizontal step is a fixed multiple of the last step. |
| CatmullRoad.StraightWhenTurningDisabled | Assets/RoadManager/CatmullRomRoad.cs:177-185 | With `maxTurnAngle = 0` every drawn turn is 0, and on an engine whose cosine and sine of 0 degrees are 1 and 0, each new point continues the line through the last two. |
| CatmullRoad.HeightStepBounded | Assets/RoadManager/CatmullRomRoad.cs:188-195 | From a point inside the band, the height change actually used never exceeds the height variation bound. |
| CatmullRoad.BuildRoadMeshFromCatmull | Assets/RoadManager/CatmullRomRoad.cs:203-262 | The span mesh has the ribbon counts and in-range indices. Its first cross-section is centred on `p1` and its last on `p2`, with UV rows 0 and 1. A negative count gives an empty mesh. |
| CatmullRoad.MakeSegment | Assets/RoadManager/CatmullRomRoad.cs:115-142 | The segment record runs from `p1` to `p2`, has as end tangent the normalised chord `(p3 - p1) / 2`, and carries the span's mesh. |
| CatmullRoad.ValidIsChained | Assets/RoadManager/CatmullRomRoad.cs:104-142 | In a valid state the active segments join end to start. |
| CatmullRoad.AppendSpanKeepsValid | Assets/RoadManager/CatmullRomRoad.cs:156-158 | Appending the span at the cursor and advancing the cursor preserves the streamer invariant. |
| CatmullRoad.RetireKeepsValid | Assets/RoadManager/CatmullRomRoad.cs:80-86 | Retiring the front segment preserves the streamer invariant. |
| CatmullRoad.AppendAll | Assets/RoadManager/CatmullRomRoad.cs:99-102 | One point is appended per draw, and the points before them are unchanged. |
| CatmullRoad.AppendAllSnoc | Assets/RoadManager/CatmullRomRoad.cs:99-102 | Appending for one more draw is one more `AddControlPoint` on the points appended so far. |
| CatmullRoad.AppendAllClamped | Assets/RoadManager/CatmullRomRoad.cs:189 | Every point appended for a run of draws lies in the global band when the band is proper. |
| CatmullRoad.AppendAllOneMore | Assets/RoadManager/CatmullRomRoad.cs:62-65 | Appending for the draws up to `u`, then for at most one more, is appending for the draws up to `u + m`: the per-segment rounds of startup compose. |
| CatmullRoad.ExtendPoints | Assets/RoadManager/CatmullRomRoad.cs:97-102 | After the look-ahead loop, index `c + 2` exists, and the loop appended exactly the missing points. They are `AddControlPoint` applied once per draw, in draw order, each to the points before it (`AppendAll`). Earlier points are unchanged and appended ones are clamped. The reported random data is the last appended point's: the last draw's distance and angle, and the height change after clamping. It is all zeros when none was appended. |
| CatmullRoad.CreateNextSegment | Assets/RoadManager/CatmullRomRoad.cs:95-159 | All of `p0..p3` exist and exactly one segment, the one for span `c`, is appended (`SpanAppended`). The cursor advances by exactly one. Draws are consumed only for missing points, and the new control points are `AddControlPoint` of the earlier ones and those draws, in order. The reported random data is that of the last point appended. |
| CatmullRoad.SpanAppendedKeepsValid | Assets/RoadManager/CatmullRomRoad.cs:95-159 | Building the span at the cursor, as `CreateNextSegment` does, preserves the streamer invariant. |
| CatmullRoad.Start | Assets/RoadManager/CatmullRomRoad.cs:52-66 | Startup seeds the four points and builds `segmentsAhead` segments. It consumes one draw per segment after the first, and the control points are the seeds followed by `AddControlPoint` for exactly those draws, in order. It establishes the invariant and makes the first segment the straight seed span from `z = -0.2` to `z = -0.1`. |
| CatmullRoad.SeedSpanIsStraight | Assets/RoadManager/CatmullRomRoad.cs:56-59 | The seed span's centre line moves along the z axis at a constant 0.1 per unit of `t`. |
| CatmullRoad.Update | Assets/RoadManager/CatmullRomRoad.cs:68-87 | A segment is created exactly when the observer is within `2 maxSegmentDistance` of the last end, and retired exactly when farther than that from the first end. The new window is the old one with the created segment, the one for span `c`, appended and then the front dropped when retired; nothing else moves. Control points only grow: the new ones are `AddControlPoint` of the earlier ones and the draws consumed, in order, at most one per draw. They stay as they were when nothing is created. The invariant is preserved. |
| CatmullRoad.FarObserverDrains | Assets/RoadManager/CatmullRomRoad.cs:68-87 | An observer at least `2 maxSegmentDistance` from both ends gets no new segment and loses the front one, so the window shrinks by one; a one-segment window is left empty. |
| Bezier.BezierPoint | Assets/RoadManager/RoadGenerator.cs:226-241 | The curve interpolates its outer control points: `p0` at `t = 0` and `p3` at `t = 1`. |
| Bezier.BezierTangent | Assets/RoadManager/RoadGenerator.cs:247-256 | The tangent at `t = 0` is `3(p1 - p0)` and at `t = 1` is `3(p3 - p2)`. |
| Bezier.BernsteinIsDeCasteljau | Assets/RoadManager/RoadGenerator.cs:226-241 | The Bernstein form agrees everywhere with the independent de Casteljau construction. |
| Bezier.BernsteinSlopeIsDerivative | Assets/RoadManager/RoadGenerator.cs:226-256 | The tangent formula is the derivative of the point formula: the first-order Taylor error is exactly `h^2` times a polynomial. |
| Bezier.PowerForm | Assets/RoadManager/RoadGenerator.cs:226-241 | The Bernstein form expanded into powers of `t`. |
| Bezier.CatmullRomIsBezier | Assets/RoadManager/RoadGenerator.cs:226-241 | A Catmull-Rom span is the Bezier curve whose inner control points sit a sixth of the neighbouring chords from the span's ends. |
| Bezier.BernsteinConstant | Assets/RoadManager/RoadGenerator.cs:226-241 | The Bernstein weights sum to one: four equal control values give a constant curve. |
| BezierRoad.WobbleBound | Assets/RoadManager/RoadGenerator.cs:100-101 | A point moved by five times a unit-ball draw stays within 5 horizontally. |
| BezierRoad.ControlPoints | Assets/RoadManager/RoadGenerator.cs:99-113 | `p0` is the start, and both inner control points are forced to the start's height. |
| BezierRoad.EndPointNearTarget | Assets/RoadManager/RoadGenerator.cs:105-108 | The end point is one segment length along the heading, jittered by at most 10 on x and z and not at all vertically. |
| BezierRoad.InnerPointsNearAnchors | Assets/RoadManager/RoadGenerator.cs:99-113 | The inner control points lie within 5, horizontally, of the points 30% of a segment length from the start and from the end. |
| BezierRoad.BuildRoadMeshFromBezier | Assets/RoadManager/RoadGenerator.cs:157-221 | The segment mesh has the ribbon counts and in-range indices. Its first cross-section is centred on `p0` and its last on `p3`, with UV rows 0 and 1. |
| BezierRoad.LevelMesh | Assets/RoadManager/RoadGenerator.cs:166-183 | When all four control points share a height, every mesh vertex is at that height. |
| BezierRoad.MakeSegment | Assets/RoadManager/RoadGenerator.cs:124-149 | The record starts at `p0` and ends at `p3`. Its end tangent is the normalised last leg `3(p3 - p2)`, and it carries the mesh. |
| BezierRoad.HeadingIsLevel | Assets/RoadManager/RoadGenerator.cs:81-90 | A level window hands the next segment a start at height 0 and a horizontal heading. |
| BezierRoad.SpanIsLevel | Assets/RoadManager/RoadGenerator.cs:143-149 | A segment built from control points all at height 0 is level: its ends, its end tangent and every vertex. |
| BezierRoad.AppendLevel | Assets/RoadManager/RoadGenerator.cs:150 | Appending a level segment to a level window keeps it level. |
| BezierRoad.AppendKeepsValid | Assets/RoadManager/RoadGenerator.cs:143-150 | A level segment appended where a chained, level window ends keeps the window chained and level. |
| BezierRoad.Heading | Assets/RoadManager/RoadGenerator.cs:80-90 | An empty window starts the next segment at the origin heading `+z`. Otherwise it starts at the last segment's end, heading parallel to that segment's end tangent. |
| BezierRoad.CreateNextSegment | Assets/RoadManager/RoadGenerator.cs:78-151 | Exactly one segment is appended and the earlier ones are unchanged. Its control points come from the origin heading `+z` for an empty window, else from the last end along the normalised last end tangent. The window invariant is preserved. |
| BezierRoad.BuiltFromSnoc | Assets/RoadManager/RoadGenerator.cs:42-46 | A segment built from the next draw, at the heading the window leaves, extends a window built from the earlier draws in order. |
| BezierRoad.Start | Assets/RoadManager/RoadGenerator.cs:40-47 | Startup creates `segmentsAhead` segments that form a chained, level window, the first starting at the origin. Segment `k` is built from draw `k` at the heading the first `k` segments leave (`BuiltFrom`). |
| BezierRoad.Update | Assets/RoadManager/RoadGenerator.cs:49-73 | Creation happens exactly when the observer is within two segment lengths of the last end, and retirement exactly when farther than that from the first end. The new window is the old one with the created segment, built from the current heading's control points, appended and then the front dropped when retired; nothing else moves. The new segment starts at the old last end, and the invariant is preserved. |
| Water.IndexBound | Assets/RoadManager/PCGWater.cs:66-69 | The slot `z (gx + 1) + x` of every grid point lies inside the vertex buffer. |
| Water.WaterGrid | Assets/RoadManager/PCGWater.cs:44-48 | The builder fails exactly when a buffer length is negative. Otherwise the vertex and UV buffers have length `(gx + 1)(gz + 1)`, the triangle buffer `6 gx gz`, and the base copy equals the vertices. |
| Water.CellSlots | Assets/RoadManager/PCGWater.cs:61-79 | The six triangle slots of cell `(x, z)` start at `6(z gx + x)`, fit in the buffer, and hold the cell's corners in the builder's order. |
| Water.GridSlot | Assets/RoadManager/PCGWater.cs:50-59 | A grid point's slot is in range and holds `(x spacing, 0, z spacing)` and UV `(x / gx, z / gz)`. |
| Water.FillVertices | Assets/RoadManager/PCGWater.cs:50-59 | The vertex pass writes every slot with its grid position and UV and copies it into the base buffer. With a negative size it writes nothing. |
| Water.FillTriangles | Assets/RoadManager/PCGWater.cs:61-79 | The triangle pass writes six indices per cell, and its cursor ends exactly at the buffer length. With a zero or negative size it writes nothing. |
| Water.GenerateWaterMesh | Assets/RoadManager/PCGWater.cs:39-85 | The array-writing builder produces exactly the closed-form buffers `WaterGrid`, with the stated lengths. |
| Water.WaterGridIsGrid | Assets/RoadManager/PCGWater.cs:44-79 | With non-negative sizes the builder succeeds. Every grid point's slot holds its position and UV, and every cell's six triangle slots hold its corners. |
| Water.CellCornerSlot | Assets/RoadManager/PCGWater.cs:66-77 | Corner `j` of cell `(x, z)` is in that cell's triangle slot `j`. |
| Water.SlotIsPoint | Assets/RoadManager/PCGWater.cs:50-54 | Every vertex slot is the slot of some grid point, so the vertex pass leaves no slot unwritten. |
| Water.IndexInjective | Assets/RoadManager/PCGWater.cs:54 | Distinct grid points have distinct slots, so no slot is written twice. |
| Water.CornerSlots | Assets/RoadManager/PCGWater.cs:66-69 | Bottom-right is one slot after bottom-left, top-left one row after it, and top-right one row and one slot after it. |
| Water.CellTriangles | Assets/RoadManager/PCGWater.cs:71-77 | Each cell's six indices are `bl, tl, br, br, tl, tr`. The two triangles share the diagonal bottom-right–top-left. |
| Water.QuadNormals | Assets/RoadManager/PCGWater.cs:71-77 | Both triangles of an axis-aligned square, in the builder's corner order, have the same upward normal `(0, s^2, 0)`. |
| Water.CellWinding | Assets/RoadManager/PCGWater.cs:71-77 | Both triangles of every cell of the built grid have the normal `(0, spacing^2, 0)`, so the surface has one consistent winding. |
| Water.TriangleInRange | Assets/RoadManager/PCGWater.cs:66-77 | Any one triangle entry of the built grid names an existing vertex. |
| Water.TrianglesInRange | Assets/RoadManager/PCGWater.cs:66-77 | Every triangle entry of the built grid names an existing vertex. |
| Water.Quotient | Assets/RoadManager/PCGWater.cs:57 | With a non-zero divisor the UV coordinate is finite and multiplying it back gives the dividend. With a zero divisor it is NaN exactly for `0 / 0`, and otherwise an infinity with the dividend's sign. |
| Water.UvInUnitSquare | Assets/RoadManager/PCGWater.cs:57 | With positive sizes every UV is finite and lies in the unit square. |
| Water.ZeroWidthUv | Assets/RoadManager/PCGWater.cs:57 | A grid zero cells wide gives every vertex the UV column `0 / 0`, which is NaN. |

## Behaviour worth knowing

- **Window size.** The code departs from its own comment here. The comment on `segmentsAhead` says that many segments are kept in front "at all times", but the code uses it only at startup. `Update` adds at most one and removes at most one segment per frame. An observer far from both ends drains the window one segment per frame (`FarObserverDrains`), until `Update` indexes an empty list. The model follows the code: `Update` requires a non-empty window, and no bound on the window size is claimed.
- **Height band.** Only appended control points are clamped. The four seeds sit at height 0 whether or not 0 lies in the band, so `Valid` asks for the band only from index 4 on.
- **Seed spacing.** The seeds are 0.1 apart on the z axis, as in `Start`, so the first segment is a 0.1-long straight span (`SeedSpanIsStraight`).
- **Degenerate sizes in the water builder.** The builder does not guard its sizes. With `gx = gz = -1` the vertex buffer is empty and the triangle buffer holds six zeros. `WaterGrid` models that literally.

## Left out

- Engine objects: GameObjects, mesh filters, renderers, colliders, materials, `Destroy`, `SetParent`, transforms and `RecalculateNormals`/`RecalculateBounds`. A segment's object is reduced to its mesh buffers.
- The debug component a Catmull-Rom segment receives. Only the random data it would display is returned, as `rand`.
- Single-precision floats. All arithmetic is over reals. In floats, `i * (1f / subdiv)` need not be exactly 1 at `i = subdiv`.
- Ribbon.SampleT: `subdiv = 0` is excluded. In floats the step is an infinity, and the source then produces NaN parameters and no triangles. Negative counts are modelled: no sample is taken.
- Ribbon.RibbonMesh: `subdiv = 0` is excluded, for the NaN parameters above.
- Ribbon.BuildRibbon: `subdiv = 0` is excluded, for the same reason.
- CatmullRoad.BuildRoadMeshFromCatmull: `subdiv = 0` is excluded, for the same reason.
- CatmullRoad.MakeSegment: a configuration with zero subdivisions is excluded, for the same reason.
- CatmullRoad.CreateNextSegment: zero subdivisions are excluded, for the same reason.
- CatmullRoad.SpanAppendedKeepsValid: zero subdivisions are excluded, for the same reason.
- CatmullRoad.Start: zero subdivisions are excluded when any segment is built, for the same reason.
- CatmullRoad.Update: zero subdivisions are excluded, for the same reason.
- CatmullRoad.FarObserverDrains: zero subdivisions are excluded, as for `Update`.
- BezierRoad.BuildRoadMeshFromBezier: `subdiv = 0` is excluded, for the same reason.
- BezierRoad.LevelMesh: `subdiv = 0` is excluded, for the same reason.
- BezierRoad.MakeSegment: zero subdivisions are excluded, for the same reason.
- BezierRoad.CreateNextSegment: zero subdivisions are excluded, for the same reason.
- BezierRoad.BuiltFromSnoc: zero subdivisions are excluded, for the same reason.
- BezierRoad.Start: zero subdivisions are excluded when any segment is built, for the same reason.
- BezierRoad.Update: zero subdivisions are excluded, for the same reason.
- Normalisation, quaternion yaw, `Vector3.Distance` and the random source. These are parameters: `normalized` is a scalar multiple chosen by an opaque `invLen`, the yaw uses opaque cosine and sine of degrees, and distance is an opaque function. Random numbers are draws, with `Random.Range` and `insideUnitSphere` ranges as preconditions.
- CatmullRom.CubicSlopeIsDerivative: the derivative fact is stated per scalar coordinate, not as a limit. The vector functions apply the same scalar per coordinate.
- Bezier.BernsteinSlopeIsDerivative: the same, per coordinate.
- Ribbon.CrossSectionWidth: the width holds only when the opaque normalisation yields a unit vector, which the model cannot compute.
- 32-bit integer overflow of indices and buffer sizes. Sizes and indices are unbounded integers; a negative product is the allocation failure the model keeps.
- `RoadGenerator.continuityOffset` and `_distanceSoFar`. They are declared but never read; `continuityOffset` is kept in `Config` only.
- The rest of `PCGWATER`. `Start` runs `GenerateWaterMesh`, which is modelled, and then assigns the renderer's material. `Update` and `AnimateWaves` only set shader parameters; the Perlin-noise displacement after the early `return` never runs.
- Car controllers, the light flicker script and the segment debug gizmos, which are outside the road and water core.
- Ownership and release of meshes on retirement. Retiring is modelled as dropping the record.
- The water builder's array methods (`FillVertexRow`, `FillVertices`, `FillCell`, `FillTriangleRow`, `FillTriangles`). Their results are stated about the arrays they modify; `GenerateWaterMesh` carries them into the closed form `WaterGrid`.

=== FILE: bezier.dfy ===
/**
 Cubic Bezier evaluation in Bernstein form, and its derivative, over control
 points `p0..p3`. The curve interpolates `p0` and `p3`; `p1` and `p2` only pull
 on it. The vector forms apply the scalar polynomial to each coordinate.
 */
module Bezier {
  import opened Vectors
  import CatmullRom

  /** Scalar Bernstein form with `u = 1 - t`, term by term as in `BezierPoint` of RoadGenerator.cs. */
  function Bernstein(a: real, b: real, c: real, d: real, t: real): real {
    var u := 1.0 - t;
    u * u * u * a + 3.0 * (u * u) * t * b + 3.0 * u * (t * t) * c + t * t * t * d
  }

  /** Scalar derivative of `Bernstein`. */
  function BernsteinSlope(a: real, b: real, c: real, d: real, t: real): real {
    var u := 1.0 - t;
    3.0 * (u * u) * (b - a) + 6.0 * u * t * (c - b) + 3.0 * (t * t) * (d - c)
  }

  /** Point on the curve; the ends are the outer control points. */
  function BezierPoint(p0: Vec3, p1: Vec3, p2: Vec3, p3: Vec3, t: real): (r: Vec3)
    ensures t == 0.0 ==> r == p0
    ensures t == 1.0 ==> r == p3
  {
    Vec3(Bernstein(p0.x, p1.x, p2.x, p3.x, t),
         Bernstein(p0.y, p1.y, p2.y, p3.y, t),
         Bernstein(p0.z, p1.z, p2.z, p3.z, t))
  }

  /** Tangent of the curve; at the ends it is three times the end legs of the control polygon. */
  function BezierTangent(p0: Vec3, p1: Vec3, p2: Vec3, p3: Vec3, t: real): (r: Vec3)
    ensures t == 0.0 ==> r == Scale(3.0, Sub(p1, p0))
    ensures t == 1.0 ==> r == Scale(3.0, Sub(p3, p2))
  {
    Vec3(BernsteinSlope(p0.x, p1.x, p2.x, p3.x, t),
         BernsteinSlope(p0.y, p1.y, p2.y, p3.y, t),
         BernsteinSlope(p0.z, p1.z, p2.z, p3.z, t))
  }

  /** Scalar linear interpolation. */
  function Mix(a: real, b: real, t: real): real {
    a + t * (b - a)
  }

  /** Independent reference: de Casteljau's three rounds of linear interpolation. */
  function DeCasteljau(a: real, b: real, c: real, d: real, t: real): real {
    var ab := Mix(a, b, t);
    var bc := Mix(b, c, t);
    var cd := Mix(c, d, t);
    Mix(Mix(ab, bc, t), Mix(bc, cd, t), t)
  }

  /** The Bernstein form and de Casteljau's construction agree everywhere. */
  lemma BernsteinIsDeCasteljau(a: real, b: real, c: real, d: real, t: real)
    ensures Bernstein(a, b, c, d, t) == DeCasteljau(a, b, c, d, t)
  {
    var u := 1.0 - t;
    assert Mix(a, b, t) == u * a + t * b;
    assert Mix(b, c, t) == u * b + t * c;
    assert Mix(c, d, t) == u * c + t * d;
    assert Mix(u * a + t * b, u * b + t * c, t) == u * u * a + 2.0 * u * t * b + t * t * c;
    assert Mix(u * b + t * c, u * c + t * d, t) == u * u * b + 2.0 * u * t * c + t * t * d;
  }

  /** The second-order remainder of a first-order Taylor step of `Bernstein`. */
  function TaylorRemainder(a: real, b: real, c: real, d: real, t: real, h: real): real {
    h * h * (3.0 * (a - 2.0 * b + c) + (d - 3.0 * c + 3.0 * b - a) * (3.0 * t + h))
  }

  /**
   `BernsteinSlope` is the derivative of `Bernstein`; so, coordinate by
   coordinate, `BezierTangent` is the derivative of `BezierPoint`.
   */
  lemma BernsteinSlopeIsDerivative(a: real, b: real, c: real, d: real, t: real, h: real)
    ensures Bernstein(a, b, c, d, t + h) - Bernstein(a, b, c, d, t) - h * BernsteinSlope(a, b, c, d, t)
            == TaylorRemainder(a, b, c, d, t, h)
  {
    PowerForm(a, b, c, d, t);
    PowerForm(a, b, c, d, t + h);
    assert (t + h) * (t + h) == t * t + 2.0 * t * h + h * h;
    assert (t + h) * (t + h) * (t + h) == t * t * t + 3.0 * t * t * h + 3.0 * t * h * h + h * h * h;
    var u := 1.0 - t;
    assert BernsteinSlope(a, b, c, d, t)
        == 3.0 * (b - a) + 6.0 * (a - 2.0 * b + c) * t + 3.0 * (d - 3.0 * c + 3.0 * b - a) * (t * t);
  }

  /** The Bernstein form expanded into powers of `t`. */
  lemma PowerForm(a: real, b: real, c: real, d: real, t: real)
    ensures Bernstein(a, b, c, d, t)
         == a + 3.0 * (b - a) * t + 3.0 * (a - 2.0 * b + c) * (t * t) + (d - 3.0 * c + 3.0 * b - a) * (t * t * t)
  {
    var u := 1.0 - t;
    assert u * u == 1.0 - 2.0 * t + t * t;
    assert u * u * u == 1.0 - 3.0 * t + 3.0 * t * t - t * t * t;
  }

  /**
   A Catmull-Rom span is the Bezier curve whose inner control points sit a
   sixth of the neighbour chords away from the span's ends.
   */
  lemma CatmullRomIsBezier(a: real, b: real, c: real, d: real, t: real)
    ensures CatmullRom.Cubic(a, b, c, d, t) == Bernstein(b, b + (c - a) / 6.0, c - (d - b) / 6.0, c, t)
  {
    PowerForm(b, b + (c - a) / 6.0, c - (d - b) / 6.0, c, t);
  }

  /** The Bernstein weights sum to one, so a curve over four equal values is constant. */
  lemma BernsteinConstant(a: real, t: real)
    ensures Bernstein(a, a, a, a, t) == a
  {
    PowerForm(a, a, a, a, t);
  }
}

=== FILE: bezier_road.dfy ===
/**
 The Bezier road streamer. Each new segment is a cubic Bezier starting where
 the previous one ended, heading along its unit end tangent (the first starts
 at the origin heading along +z). The two inner control points are pulled a
 random amount inside a ball of radius 5 and then flattened to the start
 height; the end point is jittered horizontally by up to 10 on each axis.
 The state is just the window of active segments.
 */
module BezierRoad {
  import opened Vectors
  import opened Ribbon
  import opened Segments
  import opened Bezier

  /** `continuityOffset` is declared by the generator but never read. */
  datatype Config = Config(segmentsAhead: int, segmentLength: real, roadWidth: real, subdivisions: int,
                           continuityOffset: real)

  /**
   The random values one segment consumes, in the order they are drawn: a
   point in the unit ball for `p1`, the x and z jitter of `p3`, and a point in
   the unit ball for `p2`.
   */
  datatype Draw = Draw(wobble1: Vec3, jitterX: real, jitterZ: real, wobble2: Vec3)

  /** A draw the random source can produce. */
  predicate DrawFits(d: Draw) {
    && SqNorm(d.wobble1) <= 1.0 && SqNorm(d.wobble2) <= 1.0
    && -10.0 <= d.jitterX <= 10.0 && -10.0 <= d.jitterZ <= 10.0
  }

  predicate AllFit(draws: seq<Draw>) {
    forall i :: 0 <= i < |draws| ==> DrawFits(draws[i])
  }

  /** The four control points of one segment. */
  datatype Controls = Controls(p0: Vec3, p1: Vec3, p2: Vec3, p3: Vec3)

  /** Squared distance in the horizontal (x, z) plane. */
  function FlatSqDist(a: Vec3, b: Vec3): real {
    (a.x - b.x) * (a.x - b.x) + (a.z - b.z) * (a.z - b.z)
  }

  /** A point moved from `b` by a ball draw scaled by 5 stays within 5 of it horizontally. */
  lemma WobbleBound(a: Vec3, b: Vec3, w: Vec3)
    requires SqNorm(w) <= 1.0
    requires a.x == b.x + 5.0 * w.x && a.z == b.z + 5.0 * w.z
    ensures FlatSqDist(a, b) <= 25.0
  {
    assert FlatSqDist(a, b) == 25.0 * (w.x * w.x + w.z * w.z);
    assert w.y * w.y >= 0.0;
  }

  /**
   The control points for a segment leaving `start` along `forward`. The
   inner points sit at the start height; the end point is one segment length
   along `forward`, moved by at most 10 on x and z and not at all vertically.
   */
  function ControlPoints(cfg: Config, start: Vec3, forward: Vec3, d: Draw): (q: Controls)
    requires DrawFits(d)
    ensures q.p0 == start
    ensures q.p1.y == start.y && q.p2.y == start.y
  {
    var p0 := start;
    var p1 := WithY(Add(Add(start, Scale(cfg.segmentLength * 0.3, forward)), Scale(5.0, d.wobble1)), p0.y);
    var endPos := Add(Add(start, Scale(cfg.segmentLength, forward)), Vec3(d.jitterX, 0.0, d.jitterZ));
    var p3 := endPos;
    var p2 := WithY(Add(Sub(p3, Scale(cfg.segmentLength * 0.3, forward)), Scale(5.0, d.wobble2)), p0.y);
    Controls(p0, p1, p2, p3)
  }

  /**
   The end point lies one segment length along `forward`, moved by at most 10
   on x and z and not at all vertically.
   */
  lemma EndPointNearTarget(cfg: Config, start: Vec3, forward: Vec3, d: Draw)
    requires DrawFits(d)
    ensures var q := ControlPoints(cfg, start, forward, d);
            var target := Add(start, Scale(cfg.segmentLength, forward));
            && q.p3.y == target.y
            && -10.0 <= q.p3.x - target.x <= 10.0
            && -10.0 <= q.p3.z - target.z <= 10.0
  {
  }

  /**
   The inner control points stay within 5, horizontally, of the points 30%
   of a segment length along from the start and back from the end.
   */
  lemma InnerPointsNearAnchors(cfg: Config, start: Vec3, forward: Vec3, d: Draw)
    requires DrawFits(d)
    ensures var q := ControlPoints(cfg, start, forward, d);
            && FlatSqDist(q.p1, Add(start, Scale(cfg.segmentLength * 0.3, forward))) <= 25.0
            && FlatSqDist(q.p2, Sub(q.p3, Scale(cfg.segmentLength * 0.3, forward))) <= 25.0
  {
    var q := ControlPoints(cfg, start, forward, d);
    WobbleBound(q.p1, Add(start, Scale(cfg.segmentLength * 0.3, forward)), d.wobble1);
    WobbleBound(q.p2, Sub(q.p3, Scale(cfg.segmentLength * 0.3, forward)), d.wobble2);
  }

  function BezierCurve(q: Controls): Curve {
    Curve(t => BezierPoint(q.p0, q.p1, q.p2, q.p3, t), t => BezierTangent(q.p0, q.p1, q.p2, q.p3, t))
  }

  /**
   The road mesh of one Bezier segment. Its first cross-section is centred
   on `p0` and its last on `p3`, with UV rows 0 and 1; a negative subdivision
   count gives an empty mesh.
   */
  function BuildRoadMeshFromBezier(q: Controls, width: real, subdiv: int, invLen: Vec3 -> real): (m: Mesh)
    requires subdiv != 0
    ensures subdiv < 0 ==> m.vertices == [] && m.uvs == [] && m.triangles == []
    ensures subdiv >= 1 ==> |m.vertices| == 2 * (subdiv + 1) && |m.uvs| == 2 * (subdiv + 1)
    ensures subdiv >= 1 ==> |m.triangles| == 6 * subdiv
    ensures forall k :: 0 <= k < |m.triangles| ==> 0 <= m.triangles[k] < |m.vertices|
    ensures subdiv >= 1 ==> Scale(0.5, Add(m.vertices[0], m.vertices[1])) == q.p0
    ensures subdiv >= 1 ==> Scale(0.5, Add(m.vertices[2 * subdiv], m.vertices[2 * subdiv + 1])) == q.p3
    ensures subdiv >= 1 ==> m.uvs[0] == Vec2(0.0, 0.0) && m.uvs[2 * subdiv + 1] == Vec2(1.0, 1.0)
  {
    var c := BezierCurve(q);
    if subdiv < 0 then RibbonMesh(c, invLen, width, subdiv)
    else
      RibbonLayout(c, invLen, width, subdiv, 0);
      RibbonLayout(c, invLen, width, subdiv, subdiv);
      RibbonMesh(c, invLen, width, subdiv)
  }

  /** When all four control points share a height, so does every vertex of the mesh. */
  lemma LevelMesh(q: Controls, width: real, subdiv: int, invLen: Vec3 -> real)
    requires subdiv != 0
    requires q.p1.y == q.p0.y && q.p2.y == q.p0.y && q.p3.y == q.p0.y
    ensures var m := BuildRoadMeshFromBezier(q, width, subdiv, invLen);
            forall k :: 0 <= k < |m.vertices| ==> m.vertices[k].y == q.p0.y
  {
    var c := BezierCurve(q);
    var m := BuildRoadMeshFromBezier(q, width, subdiv, invLen);
    if subdiv >= 1 {
      forall k | 0 <= k < |m.vertices|
        ensures m.vertices[k].y == q.p0.y
      {
        var i := k / 2;
        RibbonLayout(c, invLen, width, subdiv, i);
        BernsteinConstant(q.p0.y, SampleT(i, subdiv));
        assert c.pos(SampleT(i, subdiv)).y == q.p0.y;
        assert k == 2 * i || k == 2 * i + 1;
      }
    }
  }

  /**
   `s` is the record of the segment over `q`: it starts at `p0`, ends at `p3`,
   its end tangent is the unit vector along the last leg `p3 - p2` of the
   control polygon, and it carries the ribbon mesh of the curve.
   */
  ghost predicate SegmentOf(cfg: Config, e: Engine, q: Controls, s: SegmentData)
    requires cfg.subdivisions != 0
  {
    && s.startPosition == q.p0 && s.endPosition == q.p3
    && s.endTangent == Normalize(e.invLen, Scale(3.0, Sub(q.p3, q.p2)))
    && s.mesh == BuildRoadMeshFromBezier(q, cfg.roadWidth, cfg.subdivisions, e.invLen)
  }

  /** Builds the segment record, taking the end tangent from the curve's derivative at `t = 1`. */
  method MakeSegment(cfg: Config, e: Engine, q: Controls) returns (s: SegmentData)
    requires cfg.subdivisions != 0
    ensures SegmentOf(cfg, e, q, s)
  {
    var roadMesh := BuildRoadMeshFromBezier(q, cfg.roadWidth, cfg.subdivisions, e.invLen);
    var endTangent := Normalize(e.invLen, BezierTangent(q.p0, q.p1, q.p2, q.p3, 1.0));
    s := SegmentData(q.p0, q.p3, endTangent, roadMesh);
  }

  /** The segment's start, end, end tangent and every mesh vertex lie at height 0. */
  ghost predicate LevelSegment(s: SegmentData) {
    && s.startPosition.y == 0.0 && s.endPosition.y == 0.0 && s.endTangent.y == 0.0
    && forall j :: 0 <= j < |s.mesh.vertices| ==> s.mesh.vertices[j].y == 0.0
  }

  /** Every segment of the window is level. */
  ghost predicate Level(segs: seq<SegmentData>) {
    forall k :: 0 <= k < |segs| ==> LevelSegment(segs[k])
  }

  /** The window invariant: segments join end to start, and the road is level. */
  ghost predicate Valid(segs: seq<SegmentData>) {
    Chained(segs) && Level(segs)
  }

  /**
   Where the next segment leaves from and which way it heads: the origin
   along +z for an empty window, otherwise the last segment's end along its
   normalised end tangent (a vector parallel to that tangent).
   */
  function Heading(e: Engine, segs: seq<SegmentData>): (r: (Vec3, Vec3))
    ensures |segs| == 0 ==> r == (Zero, Forward)
    ensures |segs| > 0 ==> r.0 == segs[|segs| - 1].endPosition
    ensures |segs| > 0 ==> Cross(r.1, segs[|segs| - 1].endTangent) == Zero
  {
    if |segs| == 0 then (Zero, Forward)
    else (segs[|segs| - 1].endPosition, Normalize(e.invLen, segs[|segs| - 1].endTangent))
  }

  /**
   Segment `k` of `segs` was built from draw `k`: from the control points
   drawn for the heading the first `k` segments leave behind.
   */
  ghost predicate BuiltFrom(cfg: Config, e: Engine, segs: seq<SegmentData>, draws: seq<Draw>)
    requires cfg.subdivisions != 0 && |segs| <= |draws| && AllFit(draws)
  {
    forall k :: 0 <= k < |segs| ==>
      SegmentOf(cfg, e, ControlPoints(cfg, Heading(e, segs[..k]).0, Heading(e, segs[..k]).1, draws[k]), segs[k])
  }

  /** A segment built from the next draw, appended to a window built from the draws before it. */
  lemma BuiltFromSnoc(cfg: Config, e: Engine, segs: seq<SegmentData>, draws: seq<Draw>, seg: SegmentData)
    requires cfg.subdivisions != 0 && |segs| < |draws| && AllFit(draws)
    requires BuiltFrom(cfg, e, segs, draws)
    requires SegmentOf(cfg, e, ControlPoints(cfg, Heading(e, segs).0, Heading(e, segs).1, draws[|segs|]), seg)
    ensures BuiltFrom(cfg, e, segs + [seg], draws)
  {
    var segs' := segs + [seg];
    forall k | 0 <= k < |segs'|
      ensures SegmentOf(cfg, e, ControlPoints(cfg, Heading(e, segs'[..k]).0, Heading(e, segs'[..k]).1, draws[k]), segs'[k])
    {
      if k < |segs| {
        assert segs'[..k] == segs[..k] && segs'[k] == segs[k];
      } else {
        assert segs'[..k] == segs;
      }
    }
  }

  /** Appends the next segment, built from the control points drawn for the current heading. */
  method CreateNextSegment(cfg: Config, e: Engine, segs: seq<SegmentData>, d: Draw)
    returns (next: seq<SegmentData>, q: Controls)
    requires cfg.subdivisions != 0 && DrawFits(d)
    ensures |next| == |segs| + 1 && next[..|segs|] == segs
    ensures q == ControlPoints(cfg, Heading(e, segs).0, Heading(e, segs).1, d)
    ensures SegmentOf(cfg, e, q, next[|segs|])
    ensures Valid(segs) ==> Valid(next)
  {
    var (startPos, startForward) := Heading(e, segs);
    q := ControlPoints(cfg, startPos, startForward, d);
    var seg := MakeSegment(cfg, e, q);
    next := segs + [seg];
    if Valid(segs) {
      assert LevelSegment(seg) by {
        EndPointNearTarget(cfg, startPos, startForward, d);
        HeadingIsLevel(e, segs);
        assert q.p3.y == 0.0;
        SpanIsLevel(cfg, e, q, seg);
      }
      AppendKeepsValid(segs, seg);
    }
  }

  /** Control points all at height 0 give a level segment. */
  lemma SpanIsLevel(cfg: Config, e: Engine, q: Controls, s: SegmentData)
    requires cfg.subdivisions != 0 && SegmentOf(cfg, e, q, s)
    requires q.p0.y == 0.0 && q.p1.y == 0.0 && q.p2.y == 0.0 && q.p3.y == 0.0
    ensures LevelSegment(s)
  {
    LevelMesh(q, cfg.roadWidth, cfg.subdivisions, e.invLen);
  }

  /** A level window heads off at height 0 along a horizontal direction. */
  lemma HeadingIsLevel(e: Engine, segs: seq<SegmentData>)
    requires Level(segs)
    ensures Heading(e, segs).0.y == 0.0 && Heading(e, segs).1.y == 0.0
  {
    if |segs| > 0 {
      assert LevelSegment(segs[|segs| - 1]);
    }
  }

  /** Appending a level segment to a level window keeps it level. */
  lemma AppendLevel(segs: seq<SegmentData>, seg: SegmentData)
    requires Level(segs) && LevelSegment(seg)
    ensures Level(segs + [seg])
  {
    var next := segs + [seg];
    forall k | 0 <= k < |next|
      ensures LevelSegment(next[k])
    {
      if k < |segs| {
        assert next[k] == segs[k];
      }
    }
  }

  /** A level segment appended where a valid window ends keeps it valid. */
  lemma AppendKeepsValid(segs: seq<SegmentData>, seg: SegmentData)
    requires Valid(segs) && LevelSegment(seg)
    requires |segs| > 0 ==> seg.startPosition == segs[|segs| - 1].endPosition
    ensures Valid(segs + [seg])
  {
    AppendLevel(segs, seg);
    WindowStepChained(segs, [seg], false);
  }

  /**
   Startup: create `segmentsAhead` segments from an empty window. The first
   starts at the origin.
   */
  method Start(cfg: Config, e: Engine, draws: seq<Draw>) returns (segs: seq<SegmentData>)
    requires cfg.segmentsAhead >= 1 ==> cfg.subdivisions != 0
    requires |draws| >= cfg.segmentsAhead && AllFit(draws)
    ensures |segs| == if cfg.segmentsAhead < 0 then 0 else cfg.segmentsAhead
    ensures Valid(segs)
    ensures |segs| > 0 ==> segs[0].startPosition == Zero
    ensures cfg.segmentsAhead >= 1 ==> BuiltFrom(cfg, e, segs, draws)
  {
    segs := [];
    var i := 0;
    while i < cfg.segmentsAhead
      invariant 0 <= i && |segs| == i
      invariant i <= if cfg.segmentsAhead < 0 then 0 else cfg.segmentsAhead
      invariant Valid(segs)
      invariant |segs| > 0 ==> segs[0].startPosition == Zero
      invariant cfg.segmentsAhead >= 1 ==> BuiltFrom(cfg, e, segs, draws)
    {
      segs := StartStep(cfg, e, segs, draws);
      i := i + 1;
    }
  }

  /**
   One round of the startup loop: the segment for the next draw is appended
   and the window stays valid, anchored at the origin and built from the
   draws in order.
   */
  method StartStep(cfg: Config, e: Engine, segs: seq<SegmentData>, draws: seq<Draw>) returns (next: seq<SegmentData>)
    requires cfg.subdivisions != 0 && |segs| < |draws| && AllFit(draws)
    requires Valid(segs) && BuiltFrom(cfg, e, segs, draws)
    requires |segs| > 0 ==> segs[0].startPosition == Zero
    ensures |next| == |segs| + 1
    ensures Valid(next) && BuiltFrom(cfg, e, next, draws)
    ensures next[0].startPosition == Zero
  {
    var q;
    next, q := CreateNextSegment(cfg, e, segs, draws[|segs|]);
    if |segs| > 0 {
      assert next[0] == next[..|segs|][0];
    }
    assert next == segs + [next[|segs|]];
    BuiltFromSnoc(cfg, e, segs, draws, next[|segs|]);
  }

  /**
   One frame: build one more segment when the observer is within two
   segment lengths of the last segment's end, then retire the front segment
   when the observer is farther than that from its end.
   */
  method Update(cfg: Config, e: Engine, segs: seq<SegmentData>, player: Vec3, d: Draw)
    returns (next: seq<SegmentData>, created: bool, retired: bool)
    requires |segs| >= 1
    requires cfg.subdivisions != 0 && DrawFits(d)
    ensures created <==> e.distance(player, segs[|segs| - 1].endPosition) < 2.0 * cfg.segmentLength
    ensures retired <==> e.distance(player, segs[0].endPosition) > 2.0 * cfg.segmentLength
    ensures |next| == |segs| + (if created then 1 else 0) - (if retired then 1 else 0)
    ensures created ==> |next| >= 1 && SegmentOf(cfg, e, ControlPoints(cfg, Heading(e, segs).0, Heading(e, segs).1, d),
                                                 next[|next| - 1])
    ensures next == WindowStep(segs, if created then [next[|next| - 1]] else [], retired)
    ensures retired ==> next[..|segs| - 1] == segs[1..]
    ensures !retired ==> next[..|segs|] == segs
    ensures created ==> next[|next| - 1].startPosition == segs[|segs| - 1].endPosition
    ensures Valid(segs) ==> Valid(next)
  {
    var lastSegment := segs[|segs| - 1];
    var distToLastSegmentEnd := e.distance(player, lastSegment.endPosition);
    var grown := segs;
    created := distToLastSegmentEnd < 2.0 * cfg.segmentLength;
    if created {
      var q;
      grown, q := CreateNextSegment(cfg, e, segs, d);
    }
    assert grown[..|segs|] == segs;
    var firstSegment := grown[0];
    assert firstSegment == segs[0];
    var distFromPlayerToFirstSegmentEnd := e.distance(player, firstSegment.endPosition);
    retired := distFromPlayerToFirstSegmentEnd > 2.0 * cfg.segmentLength;
    next := grown;
    if retired {
      next := grown[1..];
      if Valid(grown) {
        WindowStepChained(grown, [], true);
        assert next == WindowStep(grown, [], true);
        assert Level(next) by {
          forall k | 0 <= k < |next|
            ensures next[k] == grown[k + 1]
          {
          }
        }
      }
    }
    GrowThenRetire(segs, grown, retired);
  }
}

=== FILE: catmull_road.dfy ===
/**
 The Catmull-Rom road streamer. It keeps an append-only list of control
 points, a cursor naming the next span to build, and the window of active
 segments. Building span `c` needs points `c - 1 .. c + 2`; missing points
 are appended first, each one a random step from the last, turned by a random
 yaw and with a random height change clamped to the global band.

 The state is an immutable record; the per-frame steps are methods that
 return the next state. Random draws and the engine services come in as
 parameters, and each step reports how many draws it consumed.
 */
module CatmullRoad {
  import opened Vectors
  import opened Ribbon
  import opened Segments
  import opened CatmullRom

  datatype Config = Config(
    roadWidth: real,
    subdivisions: int,
    segmentsAhead: int,
    minSegmentDistance: real,
    maxSegmentDistance: real,
    maxTurnAngle: real,
    maxHeightVariation: real,
    minGlobalHeight: real,
    maxGlobalHeight: real)

  /** The three random numbers one new control point consumes, in the order they are drawn. */
  datatype Draw = Draw(distance: real, turnAngle: real, heightOffset: real)

  /** The random parameters reported for a segment's debug record. */
  datatype RoadRandomData = RoadRandomData(distanceUsed: real, turnAngleUsed: real, heightOffsetUsed: real)

  /** Generator state: control points, active segments, and the next span index. */
  datatype Road = Road(controlPoints: seq<Vec3>, activeSegments: seq<SegmentData>, currentSegmentIndex: int)

  datatype Added = Added(points: seq<Vec3>, rand: RoadRandomData)

  const NoRandom := RoadRandomData(0.0, 0.0, 0.0)

  /** The four collinear seed points, 0.1 apart along the z axis. */
  const SeedPoints := [Vec3(0.0, 0.0, -0.3), Vec3(0.0, 0.0, -0.2), Vec3(0.0, 0.0, -0.1), Vec3(0.0, 0.0, 0.0)]

  function MaxInt(a: int, b: int): int {
    if a < b then b else a
  }

  function MinReal(a: real, b: real): real {
    if a < b then a else b
  }

  function MaxReal(a: real, b: real): real {
    if a < b then b else a
  }

  /** The inclusive range a uniform draw between `a` and `b` falls in, whichever is larger. */
  predicate Within(v: real, a: real, b: real) {
    MinReal(a, b) <= v <= MaxReal(a, b)
  }

  /** A draw the random source can produce under this configuration. */
  predicate DrawFits(cfg: Config, d: Draw) {
    && Within(d.distance, cfg.minSegmentDistance, cfg.maxSegmentDistance)
    && Within(d.turnAngle, -cfg.maxTurnAngle, cfg.maxTurnAngle)
    && Within(d.heightOffset, -cfg.maxHeightVariation, cfg.maxHeightVariation)
  }

  predicate AllFit(cfg: Config, draws: seq<Draw>) {
    forall i :: 0 <= i < |draws| ==> DrawFits(cfg, draws[i])
  }

  /**
   The engine's clamp: below `lo` gives `lo`, otherwise above `hi` gives `hi`.
   On a proper band the result lies in it and values already inside are kept.
   */
  function Clamp(v: real, lo: real, hi: real): (r: real)
    ensures lo <= hi ==> lo <= r <= hi
    ensures lo <= v <= hi ==> r == v
    ensures r == v || r == lo || r == hi
  {
    if v < lo then lo else if v > hi then hi else v
  }

  /**
   Rotation about the vertical axis by `angle` degrees (a yaw quaternion
   applied to `v`). Height is untouched; forward turns to `(sin, 0, cos)`,
   the engine's clockwise-from-above yaw; a turn whose cosine is 1 and sine
   0 is the identity; and whenever `cos^2 + sin^2 = 1` the horizontal length
   is kept. Cosine and sine are engine services, so what a zero angle gives
   is an assumption about the engine, not a fact of this function.
   */
  function RotateY(e: Engine, angle: real, v: Vec3): (r: Vec3)
    ensures r.y == v.y
    ensures v == Forward ==> r == Vec3(e.sinDeg(angle), 0.0, e.cosDeg(angle))
    ensures e.cosDeg(angle) == 1.0 && e.sinDeg(angle) == 0.0 ==> r == v
    ensures e.cosDeg(angle) * e.cosDeg(angle) + e.sinDeg(angle) * e.sinDeg(angle) == 1.0 ==>
              r.x * r.x + r.z * r.z == v.x * v.x + v.z * v.z
  {
    var c := e.cosDeg(angle);
    var s := e.sinDeg(angle);
    Vec3(c * v.x + s * v.z, v.y, -s * v.x + c * v.z)
  }

  /**
   Appends one control point after the last two: a step of the drawn
   distance along the last direction turned by the drawn yaw, at the last
   height plus the drawn offset, clamped to the global band.
   */
  function AddControlPoint(cfg: Config, e: Engine, pts: seq<Vec3>, d: Draw): (r: Added)
    requires |pts| >= 2
    requires DrawFits(cfg, d)
    ensures |r.points| == |pts| + 1 && r.points[..|pts|] == pts
    ensures cfg.minGlobalHeight <= cfg.maxGlobalHeight ==>
              cfg.minGlobalHeight <= r.points[|pts|].y <= cfg.maxGlobalHeight
    ensures r.rand.heightOffsetUsed == r.points[|pts|].y - pts[|pts| - 1].y
    ensures r.rand.distanceUsed == d.distance && r.rand.turnAngleUsed == d.turnAngle
  {
    var last := pts[|pts| - 1];
    var prev := pts[|pts| - 2];
    var dir := Normalize(e.invLen, Sub(last, prev));
    var offsetDirection := RotateY(e, d.turnAngle, dir);
    var newPoint := Add(last, Scale(d.distance, offsetDirection));
    var newY := Clamp(last.y + d.heightOffset, cfg.minGlobalHeight, cfg.maxGlobalHeight);
    Added(pts + [WithY(newPoint, newY)], RoadRandomData(d.distance, d.turnAngle, newY - last.y))
  }

  /**
   When the drawn turn has cosine 1 and sine 0 (the rotation is the
   identity), the new point continues the line through the last two points:
   its horizontal step from the last point is a fixed multiple of the last
   step.
   */
  lemma StraightContinuation(cfg: Config, e: Engine, pts: seq<Vec3>, d: Draw)
    requires |pts| >= 2 && DrawFits(cfg, d)
    requires e.cosDeg(d.turnAngle) == 1.0 && e.sinDeg(d.turnAngle) == 0.0
    ensures var last := pts[|pts| - 1];
            var prev := pts[|pts| - 2];
            var next := AddControlPoint(cfg, e, pts, d).points[|pts|];
            var k := d.distance * e.invLen(Sub(last, prev));
            && next.x - last.x == k * (last.x - prev.x)
            && next.z - last.z == k * (last.z - prev.z)
  {
    var last := pts[|pts| - 1];
    var prev := pts[|pts| - 2];
    var dir := Normalize(e.invLen, Sub(last, prev));
    assert RotateY(e, d.turnAngle, dir) == dir;
  }

  /**
   With turning disabled (`maxTurnAngle = 0`) every drawn turn is 0, so on an
   engine whose cosine and sine of 0 degrees are 1 and 0 each new control
   point continues the line through the last two.
   */
  lemma StraightWhenTurningDisabled(cfg: Config, e: Engine, pts: seq<Vec3>, d: Draw)
    requires |pts| >= 2 && DrawFits(cfg, d)
    requires cfg.maxTurnAngle == 0.0
    requires e.cosDeg(0.0) == 1.0 && e.sinDeg(0.0) == 0.0
    ensures d.turnAngle == 0.0
    ensures var last := pts[|pts| - 1];
            var prev := pts[|pts| - 2];
            var next := AddControlPoint(cfg, e, pts, d).points[|pts|];
            var k := d.distance * e.invLen(Sub(last, prev));
            && next.x - last.x == k * (last.x - prev.x)
            && next.z - last.z == k * (last.z - prev.z)
  {
    assert d.turnAngle == 0.0 by {
      assert Within(d.turnAngle, -cfg.maxTurnAngle, cfg.maxTurnAngle);
    }
    StraightContinuation(cfg, e, pts, d);
  }

  /**
   When the last point already lies in the band, clamping only pulls the new
   height towards it, so the height change used never exceeds the drawn
   variation bound.
   */
  lemma HeightStepBounded(cfg: Config, e: Engine, pts: seq<Vec3>, d: Draw)
    requires |pts| >= 2 && DrawFits(cfg, d)
    requires cfg.minGlobalHeight <= pts[|pts| - 1].y <= cfg.maxGlobalHeight
    ensures var used := AddControlPoint(cfg, e, pts, d).rand.heightOffsetUsed;
            -MaxReal(cfg.maxHeightVariation, -cfg.maxHeightVariation) <= used
            <= MaxReal(cfg.maxHeightVariation, -cfg.maxHeightVariation)
  {
    var last := pts[|pts| - 1];
    var raw := last.y + d.heightOffset;
    var newY := Clamp(raw, cfg.minGlobalHeight, cfg.maxGlobalHeight);
    assert newY - last.y == AddControlPoint(cfg, e, pts, d).rand.heightOffsetUsed;
    if raw < cfg.minGlobalHeight {
      assert raw <= newY <= last.y;
    } else if raw > cfg.maxGlobalHeight {
      assert last.y <= newY <= raw;
    }
  }

  /** Draws needed to make span `cursor` buildable from `count` points. */
  function Needed(cursor: int, count: int): nat {
    MaxInt(0, cursor + 3 - count)
  }

  /**
   Every point from index `from` on lies in the global band (when the band
   is proper): the points the generator appended, as opposed to the seeds.
   */
  ghost predicate HeightsClamped(cfg: Config, pts: seq<Vec3>, from: int) {
    cfg.minGlobalHeight <= cfg.maxGlobalHeight ==>
      forall i :: from <= i < |pts| && 0 <= i ==> cfg.minGlobalHeight <= pts[i].y <= cfg.maxGlobalHeight
  }

  /**
   The control points after appending one point per draw, in draw order,
   each by `AddControlPoint` on the points before it.
   */
  function AppendAll(cfg: Config, e: Engine, pts: seq<Vec3>, ds: seq<Draw>): (r: seq<Vec3>)
    requires |pts| >= 2 && AllFit(cfg, ds)
    ensures |r| == |pts| + |ds| && r[..|pts|] == pts
    decreases |ds|
  {
    if |ds| == 0 then pts
    else
      var before := AppendAll(cfg, e, pts, ds[..|ds| - 1]);
      AddControlPoint(cfg, e, before, ds[|ds| - 1]).points
  }

  /** Any slice of draws that fit also fits. */
  lemma AllFitSlice(cfg: Config, ds: seq<Draw>, lo: int, hi: int)
    requires AllFit(cfg, ds) && 0 <= lo <= hi <= |ds|
    ensures AllFit(cfg, ds[lo..hi])
  {
    forall i | 0 <= i < hi - lo
      ensures DrawFits(cfg, ds[lo..hi][i])
    {
      assert ds[lo..hi][i] == ds[lo + i];
    }
  }

  /** Appending for one more draw is one more `AddControlPoint`. */
  lemma AppendAllSnoc(cfg: Config, e: Engine, pts: seq<Vec3>, ds: seq<Draw>, d: Draw)
    requires |pts| >= 2 && AllFit(cfg, ds) && DrawFits(cfg, d)
    ensures AllFit(cfg, ds + [d])
    ensures AppendAll(cfg, e, pts, ds + [d]) == AddControlPoint(cfg, e, AppendAll(cfg, e, pts, ds), d).points
  {
    var ds' := ds + [d];
    assert AllFit(cfg, ds') by {
      forall i | 0 <= i < |ds'|
        ensures DrawFits(cfg, ds'[i])
      {
        if i < |ds| { assert ds'[i] == ds[i]; }
      }
    }
    assert ds'[..|ds'| - 1] == ds;
  }

  /** Every appended point lies in the global band. */
  lemma {:induction false} AppendAllClamped(cfg: Config, e: Engine, pts: seq<Vec3>, ds: seq<Draw>)
    requires |pts| >= 2 && AllFit(cfg, ds)
    ensures HeightsClamped(cfg, AppendAll(cfg, e, pts, ds), |pts|)
    decreases |ds|
  {
    if |ds| > 0 && cfg.minGlobalHeight <= cfg.maxGlobalHeight {
      var ds' := ds[..|ds| - 1];
      AllFitSlice(cfg, ds, 0, |ds| - 1);
      var before := AppendAll(cfg, e, pts, ds');
      AppendAllClamped(cfg, e, pts, ds');
      var r := AppendAll(cfg, e, pts, ds);
      assert r == AddControlPoint(cfg, e, before, ds[|ds| - 1]).points;
      forall i | |pts| <= i < |r|
        ensures cfg.minGlobalHeight <= r[i].y <= cfg.maxGlobalHeight
      {
        if i < |before| {
          assert r[i] == r[..|before|][i];
        }
      }
    }
  }

  /** Appending for no draws leaves the points as they are. */
  lemma AppendAllNone(cfg: Config, e: Engine, pts: seq<Vec3>, ds: seq<Draw>)
    requires |pts| >= 2
    ensures AllFit(cfg, ds[..0]) && AppendAll(cfg, e, pts, ds[..0]) == pts
  {
    assert ds[..0] == [];
  }

  /**
   Appending for the draws up to `u` and then for at most one more draw is
   appending for the draws up to `u + m`.
   */
  lemma AppendAllOneMore(cfg: Config, e: Engine, pts: seq<Vec3>, ds: seq<Draw>, u: nat, m: nat,
                         before: seq<Vec3>, after: seq<Vec3>)
    requires |pts| >= 2 && AllFit(cfg, ds) && u + m <= |ds| && m <= 1
    requires AllFit(cfg, ds[..u]) && before == AppendAll(cfg, e, pts, ds[..u])
    requires AllFit(cfg, ds[u..][..m]) && after == AppendAll(cfg, e, before, ds[u..][..m])
    ensures AllFit(cfg, ds[..u + m]) && after == AppendAll(cfg, e, pts, ds[..u + m])
  {
    AllFitSlice(cfg, ds, 0, u + m);
    if m == 1 {
      assert ds[u..][..1][..0] == [];
      assert after == AddControlPoint(cfg, e, before, ds[u]).points;
      assert ds[..u + 1] == ds[..u] + [ds[u]];
      AppendAllSnoc(cfg, e, pts, ds[..u], ds[u]);
    } else {
      assert ds[..u + m] == ds[..u];
    }
  }

  /** The span `p1 -> p2` shaped by `p0` and `p3`, as a curve for the ribbon builder. */
  function CatmullCurve(p0: Vec3, p1: Vec3, p2: Vec3, p3: Vec3): Curve {
    Curve(t => CatmullRomPos(p0, p1, p2, p3, t), t => CatmullRomTangent(p0, p1, p2, p3, t))
  }

  /**
   The road mesh of one Catmull-Rom span. Its first cross-section is centred
   on `p1` and its last on `p2`, with UV rows 0 and 1; a negative subdivision
   count gives an empty mesh.
   */
  function BuildRoadMeshFromCatmull(p0: Vec3, p1: Vec3, p2: Vec3, p3: Vec3, width: real, subdiv: int,
                                    invLen: Vec3 -> real): (m: Mesh)
    requires subdiv != 0
    ensures subdiv < 0 ==> m.vertices == [] && m.uvs == [] && m.triangles == []
    ensures subdiv >= 1 ==> |m.vertices| == 2 * (subdiv + 1) && |m.uvs| == 2 * (subdiv + 1)
    ensures subdiv >= 1 ==> |m.triangles| == 6 * subdiv
    ensures forall k :: 0 <= k < |m.triangles| ==> 0 <= m.triangles[k] < |m.vertices|
    ensures subdiv >= 1 ==> Scale(0.5, Add(m.vertices[0], m.vertices[1])) == p1
    ensures subdiv >= 1 ==> Scale(0.5, Add(m.vertices[2 * subdiv], m.vertices[2 * subdiv + 1])) == p2
    ensures subdiv >= 1 ==> m.uvs[0] == Vec2(0.0, 0.0) && m.uvs[2 * subdiv + 1] == Vec2(1.0, 1.0)
  {
    var c := CatmullCurve(p0, p1, p2, p3);
    if subdiv < 0 then RibbonMesh(c, invLen, width, subdiv)
    else
      RibbonLayout(c, invLen, width, subdiv, 0);
      RibbonLayout(c, invLen, width, subdiv, subdiv);
      RibbonMesh(c, invLen, width, subdiv)
  }

  /**
   `s` is the record of span `p0..p3`: it runs from `p1` to `p2`, its end
   tangent is the unit vector along the chord `p3 - p1`, and it carries the
   ribbon mesh of the span.
   */
  ghost predicate SegmentOf(cfg: Config, e: Engine, p0: Vec3, p1: Vec3, p2: Vec3, p3: Vec3, s: SegmentData)
    requires cfg.subdivisions != 0
  {
    && s.startPosition == p1 && s.endPosition == p2
    && s.endTangent == Normalize(e.invLen, Scale(0.5, Sub(p3, p1)))
    && s.mesh == BuildRoadMeshFromCatmull(p0, p1, p2, p3, cfg.roadWidth, cfg.subdivisions, e.invLen)
  }

  /** Builds the segment record, taking its ends and end tangent from the curve at `t = 0` and `t = 1`. */
  method MakeSegment(cfg: Config, e: Engine, p0: Vec3, p1: Vec3, p2: Vec3, p3: Vec3) returns (s: SegmentData)
    requires cfg.subdivisions != 0
    ensures SegmentOf(cfg, e, p0, p1, p2, p3, s)
  {
    var roadMesh := BuildRoadMeshFromCatmull(p0, p1, p2, p3, cfg.roadWidth, cfg.subdivisions, e.invLen);
    var endPos := CatmullRomPos(p0, p1, p2, p3, 1.0);
    var endTangent := Normalize(e.invLen, CatmullRomTangent(p0, p1, p2, p3, 1.0));
    s := SegmentData(CatmullRomPos(p0, p1, p2, p3, 0.0), endPos, endTangent, roadMesh);
  }

  /**
   The streamer invariant: the cursor is at least 1 and the control points
   reach exactly two past it (four seeds at least); the active segments are
   the spans just before the cursor, in order, each running from its control
   point to the next; and every appended point respects the height band.
   */
  ghost predicate Valid(cfg: Config, road: Road) {
    var c := road.currentSegmentIndex;
    var pts := road.controlPoints;
    var segs := road.activeSegments;
    && 1 <= c && |pts| == MaxInt(4, c + 2)
    && |segs| <= c - 1
    && (forall k :: 0 <= k < |segs| ==>
          segs[k].startPosition == pts[c - |segs| + k] && segs[k].endPosition == pts[c - |segs| + k + 1])
    && HeightsClamped(cfg, pts, 4)
  }

  /** In a valid state the active segments join end to start. */
  lemma ValidIsChained(cfg: Config, road: Road)
    requires Valid(cfg, road)
    ensures Chained(road.activeSegments)
  {
    var segs := road.activeSegments;
    forall i | 0 < i < |segs|
      ensures segs[i].startPosition == segs[i - 1].endPosition
    {
      var c := road.currentSegmentIndex;
      assert segs[i].startPosition == road.controlPoints[c - |segs| + i];
      assert segs[i - 1].endPosition == road.controlPoints[c - |segs| + (i - 1) + 1];
    }
  }

  /** Appending the span at the cursor and advancing it keeps the invariant. */
  lemma AppendSpanKeepsValid(cfg: Config, road: Road, pts': seq<Vec3>, seg: SegmentData)
    requires Valid(cfg, road)
    requires var c := road.currentSegmentIndex;
             && |pts'| == MaxInt(|road.controlPoints|, c + 3)
             && pts'[..|road.controlPoints|] == road.controlPoints
             && HeightsClamped(cfg, pts', |road.controlPoints|)
             && seg.startPosition == pts'[c] && seg.endPosition == pts'[c + 1]
    ensures Valid(cfg, Road(pts', road.activeSegments + [seg], road.currentSegmentIndex + 1))
  {
    var c := road.currentSegmentIndex;
    var segs := road.activeSegments;
    var segs' := segs + [seg];
    var pts := road.controlPoints;
    forall k | 0 <= k < |segs'|
      ensures segs'[k].startPosition == pts'[c + 1 - |segs'| + k]
      ensures segs'[k].endPosition == pts'[c + 1 - |segs'| + k + 1]
    {
      if k < |segs| {
        assert segs'[k] == segs[k];
        assert pts'[c - |segs| + k] == pts'[..|pts|][c - |segs| + k];
        assert pts'[c - |segs| + k + 1] == pts'[..|pts|][c - |segs| + k + 1];
      }
    }
    assert HeightsClamped(cfg, pts', 4) by {
      if cfg.minGlobalHeight <= cfg.maxGlobalHeight {
        forall i | 4 <= i < |pts'|
          ensures cfg.minGlobalHeight <= pts'[i].y <= cfg.maxGlobalHeight
        {
          if i < |pts| {
            assert pts'[i] == pts'[..|pts|][i];
          }
        }
      }
    }
  }

  /** Retiring the front segment keeps the invariant. */
  lemma RetireKeepsValid(cfg: Config, road: Road)
    requires Valid(cfg, road) && |road.activeSegments| >= 1
    ensures Valid(cfg, road.(activeSegments := road.activeSegments[1..]))
  {
    var segs := road.activeSegments;
    var c := road.currentSegmentIndex;
    forall k | 0 <= k < |segs| - 1
      ensures segs[1..][k].startPosition == road.controlPoints[c - (|segs| - 1) + k]
      ensures segs[1..][k].endPosition == road.controlPoints[c - (|segs| - 1) + k + 1]
    {
      assert segs[1..][k] == segs[k + 1];
    }
  }

  /**
   The look-ahead loop: appends control points until index `c + 2` exists,
   returning the random values of the last one drawn.
   */
  method ExtendPoints(cfg: Config, e: Engine, points: seq<Vec3>, c: int, draws: seq<Draw>)
    returns (pts: seq<Vec3>, rand: RoadRandomData, used: nat)
    requires |points| >= 2
    requires |draws| >= Needed(c, |points|) && AllFit(cfg, draws)
    ensures c + 2 < |pts| && |pts| == MaxInt(|points|, c + 3)
    ensures pts[..|points|] == points
    ensures HeightsClamped(cfg, pts, |points|)
    ensures used == Needed(c, |points|)
    ensures used == 0 ==> rand == NoRandom
    ensures used > 0 ==> rand.heightOffsetUsed == pts[|pts| - 1].y - pts[|pts| - 2].y
    ensures used > 0 ==> rand.distanceUsed == draws[used - 1].distance && rand.turnAngleUsed == draws[used - 1].turnAngle
    ensures AllFit(cfg, draws[..used]) && pts == AppendAll(cfg, e, points, draws[..used])
  {
    pts := points;
    rand := NoRandom;
    used := 0;
    while c + 2 >= |pts|
      invariant |pts| == |points| + used
      invariant used <= Needed(c, |points|)
      invariant pts[..|points|] == points
      invariant used == 0 ==> rand == NoRandom
      invariant used > 0 ==> rand.heightOffsetUsed == pts[|pts| - 1].y - pts[|pts| - 2].y
      invariant used > 0 ==> rand.distanceUsed == draws[used - 1].distance && rand.turnAngleUsed == draws[used - 1].turnAngle
      invariant AllFit(cfg, draws[..used]) && pts == AppendAll(cfg, e, points, draws[..used])
      decreases c + 3 - |pts|
    {
      pts, rand := AppendNext(cfg, e, points, pts, draws, used);
      used := used + 1;
    }
    AppendAllClamped(cfg, e, points, draws[..used]);
  }

  /** One round of the look-ahead loop: the point for the next draw, appended to the points so far. */
  method AppendNext(cfg: Config, e: Engine, points: seq<Vec3>, pts: seq<Vec3>, draws: seq<Draw>, used: nat)
    returns (next: seq<Vec3>, rand: RoadRandomData)
    requires |points| >= 2 && used < |draws| && AllFit(cfg, draws)
    requires AllFit(cfg, draws[..used]) && pts == AppendAll(cfg, e, points, draws[..used])
    ensures AllFit(cfg, draws[..used + 1]) && next == AppendAll(cfg, e, points, draws[..used + 1])
    ensures |next| == |pts| + 1 && next[..|points|] == points
    ensures rand.heightOffsetUsed == next[|next| - 1].y - next[|next| - 2].y
    ensures rand.distanceUsed == draws[used].distance && rand.turnAngleUsed == draws[used].turnAngle
  {
    var added := AddControlPoint(cfg, e, pts, draws[used]);
    assert draws[..used + 1] == draws[..used] + [draws[used]];
    AppendAllSnoc(cfg, e, points, draws[..used], draws[used]);
    next, rand := added.points, added.rand;
  }

  /**
   `next` is `road` with the span at the old cursor `c` built: the control
   points were only appended to, until that span has all four points, the
   segment over it is appended to the window, and the cursor moves to `c + 1`.
   */
  ghost predicate SpanAppended(cfg: Config, e: Engine, road: Road, next: Road)
    requires cfg.subdivisions != 0
  {
    var c := road.currentSegmentIndex;
    var pts := next.controlPoints;
    && 1 <= c && c + 2 < |pts|
    && |pts| == MaxInt(|road.controlPoints|, c + 3)
    && pts[..|road.controlPoints|] == road.controlPoints
    && HeightsClamped(cfg, pts, |road.controlPoints|)
    && next.currentSegmentIndex == c + 1
    && |next.activeSegments| == |road.activeSegments| + 1
    && next.activeSegments[..|road.activeSegments|] == road.activeSegments
    && SegmentOf(cfg, e, pts[c - 1], pts[c], pts[c + 1], pts[c + 2], next.activeSegments[|road.activeSegments|])
  }

  /** Building the span at the cursor keeps the invariant. */
  lemma SpanAppendedKeepsValid(cfg: Config, e: Engine, road: Road, next: Road)
    requires cfg.subdivisions != 0
    requires Valid(cfg, road) && SpanAppended(cfg, e, road, next)
    ensures Valid(cfg, next)
  {
    var seg := next.activeSegments[|road.activeSegments|];
    AppendSpanKeepsValid(cfg, road, next.controlPoints, seg);
    assert next.activeSegments == road.activeSegments + [seg];
  }

  /**
   Builds the segment for span `currentSegmentIndex` and advances the
   cursor by one, after appending one control point per draw, in order,
   until all four span points exist. The random values returned are those
   of the last point appended.
   */
  method CreateNextSegment(cfg: Config, e: Engine, road: Road, draws: seq<Draw>)
    returns (next: Road, rand: RoadRandomData, used: nat)
    requires road.currentSegmentIndex >= 1 && |road.controlPoints| >= 2
    requires cfg.subdivisions != 0
    requires |draws| >= Needed(road.currentSegmentIndex, |road.controlPoints|) && AllFit(cfg, draws)
    ensures used == Needed(road.currentSegmentIndex, |road.controlPoints|)
    ensures AllFit(cfg, draws[..used]) && next.controlPoints == AppendAll(cfg, e, road.controlPoints, draws[..used])
    ensures SpanAppended(cfg, e, road, next)
    ensures used == 0 ==> rand == NoRandom
    ensures used > 0 ==> rand.heightOffsetUsed
                         == next.controlPoints[|next.controlPoints| - 1].y - next.controlPoints[|next.controlPoints| - 2].y
    ensures used > 0 ==> rand.distanceUsed == draws[used - 1].distance && rand.turnAngleUsed == draws[used - 1].turnAngle
  {
    var c := road.currentSegmentIndex;
    var pts;
    pts, rand, used := ExtendPoints(cfg, e, road.controlPoints, c, draws);
    var seg := MakeSegment(cfg, e, pts[c - 1], pts[c], pts[c + 1], pts[c + 2]);
    next := Road(pts, road.activeSegments + [seg], c + 1);
    assert next.activeSegments[..|road.activeSegments|] == road.activeSegments;
    assert next.activeSegments[|road.activeSegments|] == seg;
  }


  /**
   Startup: seed the four collinear points and build `segmentsAhead`
   segments. Every segment after the first needs one fresh control point.
   The first segment is the seed span, from (0, 0, -0.2) to (0, 0, -0.1).
   */
  method Start(cfg: Config, e: Engine, draws: seq<Draw>) returns (road: Road, used: nat)
    requires cfg.segmentsAhead >= 1 ==> cfg.subdivisions != 0
    requires |draws| >= MaxInt(0, cfg.segmentsAhead - 1) && AllFit(cfg, draws)
    ensures Valid(cfg, road)
    ensures road.controlPoints[..4] == SeedPoints
    ensures |road.activeSegments| == MaxInt(0, cfg.segmentsAhead)
    ensures road.currentSegmentIndex == 1 + MaxInt(0, cfg.segmentsAhead)
    ensures used == MaxInt(0, cfg.segmentsAhead - 1)
    ensures |road.controlPoints| == 4 + used
    ensures AllFit(cfg, draws[..used]) && road.controlPoints == AppendAll(cfg, e, SeedPoints, draws[..used])
    ensures cfg.segmentsAhead >= 1 ==>
              && road.activeSegments[0].startPosition == Vec3(0.0, 0.0, -0.2)
              && road.activeSegments[0].endPosition == Vec3(0.0, 0.0, -0.1)
  {
    road := Road(SeedPoints, [], 1);
    used := 0;
    assert draws[..0] == [];
    var i := 0;
    while i < cfg.segmentsAhead
      invariant 0 <= i <= MaxInt(0, cfg.segmentsAhead)
      invariant Valid(cfg, road)
      invariant road.currentSegmentIndex == 1 + i && |road.activeSegments| == i
      invariant used == MaxInt(0, i - 1) && used <= |draws|
      invariant AllFit(cfg, draws[..used]) && road.controlPoints == AppendAll(cfg, e, SeedPoints, draws[..used])
      invariant i >= 1 ==> && road.activeSegments[0].startPosition == Vec3(0.0, 0.0, -0.2)
                           && road.activeSegments[0].endPosition == Vec3(0.0, 0.0, -0.1)
    {
      var more: nat;
      road, more := StartStep(cfg, e, road, SeedPoints, draws, used);
      used := used + more;
      i := i + 1;
    }
  }

  /**
   One round of the startup loop: the next segment is appended, the
   segments already built stay in place, and the new segment spans the
   control points at the old cursor and the one after it. Every round after
   the first appends the point for the next draw, so the points stay `base`
   followed by one point per draw consumed.
   */
  method StartStep(cfg: Config, e: Engine, road: Road, base: seq<Vec3>, draws: seq<Draw>, used: nat)
    returns (next: Road, more: nat)
    requires Valid(cfg, road)
    requires cfg.subdivisions != 0
    requires used + Needed(road.currentSegmentIndex, |road.controlPoints|) <= |draws| && AllFit(cfg, draws)
    requires |base| >= 2 && AllFit(cfg, draws[..used]) && road.controlPoints == AppendAll(cfg, e, base, draws[..used])
    ensures Valid(cfg, next)
    ensures next.currentSegmentIndex == road.currentSegmentIndex + 1
    ensures |next.activeSegments| == |road.activeSegments| + 1
    ensures next.activeSegments[..|road.activeSegments|] == road.activeSegments
    ensures var c := road.currentSegmentIndex;
            && next.activeSegments[|road.activeSegments|].startPosition == next.controlPoints[c]
            && next.activeSegments[|road.activeSegments|].endPosition == next.controlPoints[c + 1]
    ensures more == Needed(road.currentSegmentIndex, |road.controlPoints|)
    ensures more == if road.currentSegmentIndex == 1 then 0 else 1
    ensures AllFit(cfg, draws[..used + more]) && next.controlPoints == AppendAll(cfg, e, base, draws[..used + more])
  {
    var rand;
    next, rand, more := CreateNextSegment(cfg, e, road, draws[used..]);
    SpanAppendedKeepsValid(cfg, e, road, next);
    AppendAllOneMore(cfg, e, base, draws, used, more, road.controlPoints, next.controlPoints);
  }

  /** The seed span is straight: its centre line moves along z at a constant 0.1 per unit of t. */
  lemma SeedSpanIsStraight(t: real)
    ensures CatmullRomPos(SeedPoints[0], SeedPoints[1], SeedPoints[2], SeedPoints[3], t)
            == Vec3(0.0, 0.0, -0.2 + 0.1 * t)
  {
    var q0, q1, q2, q3 := SeedPoints[0], SeedPoints[1], SeedPoints[2], SeedPoints[3];
    assert q0 == Vec3(0.0, 0.0, -0.3) && q1 == Vec3(0.0, 0.0, -0.2);
    assert q2 == Vec3(0.0, 0.0, -0.1) && q3 == Vec3(0.0, 0.0, 0.0);
    assert Cubic(0.0, 0.0, 0.0, 0.0, t) == 0.0;
    assert Cubic(-0.3, -0.2, -0.1, 0.0, t) == -0.2 + 0.1 * t;
  }

  /**
   One frame: build one more segment when the observer is within twice the
   maximum step of the last segment's end, then retire the front segment
   when the observer is farther than that from its end. Only the back grows
   and only the front shrinks.
   */
  method Update(cfg: Config, e: Engine, road: Road, player: Vec3, draws: seq<Draw>)
    returns (next: Road, created: bool, retired: bool, used: nat)
    requires |road.activeSegments| >= 1
    requires road.currentSegmentIndex >= 1 && |road.controlPoints| >= 2
    requires cfg.subdivisions != 0
    requires |draws| >= Needed(road.currentSegmentIndex, |road.controlPoints|) && AllFit(cfg, draws)
    ensures var segs := road.activeSegments;
            created <==> e.distance(player, segs[|segs| - 1].endPosition) < 2.0 * cfg.maxSegmentDistance
    ensures retired <==> e.distance(player, road.activeSegments[0].endPosition) > 2.0 * cfg.maxSegmentDistance
    ensures |next.activeSegments|
            == |road.activeSegments| + (if created then 1 else 0) - (if retired then 1 else 0)
    ensures var c := road.currentSegmentIndex;
            var pts := next.controlPoints;
            created ==> && c + 2 < |pts| && |next.activeSegments| >= 1
                        && SegmentOf(cfg, e, pts[c - 1], pts[c], pts[c + 1], pts[c + 2],
                                     next.activeSegments[|next.activeSegments| - 1])
    ensures next.activeSegments
            == WindowStep(road.activeSegments,
                          if created then [next.activeSegments[|next.activeSegments| - 1]] else [], retired)
    ensures retired ==> next.activeSegments[..|road.activeSegments| - 1] == road.activeSegments[1..]
    ensures !retired ==> next.activeSegments[..|road.activeSegments|] == road.activeSegments
    ensures next.currentSegmentIndex == road.currentSegmentIndex + (if created then 1 else 0)
    ensures |next.controlPoints| >= |road.controlPoints|
    ensures next.controlPoints[..|road.controlPoints|] == road.controlPoints
    ensures !created ==> next.controlPoints == road.controlPoints
    ensures used == (if created then Needed(road.currentSegmentIndex, |road.controlPoints|) else 0)
    ensures AllFit(cfg, draws[..used]) && next.controlPoints == AppendAll(cfg, e, road.controlPoints, draws[..used])
    ensures |next.controlPoints| <= |road.controlPoints| + |draws|
    ensures Valid(cfg, road) ==> Valid(cfg, next)
  {
    var segs := road.activeSegments;
    var grown;
    grown, created, used := Grow(cfg, e, road, player, draws);
    assert grown.activeSegments[..|segs|] == segs;
    assert grown.activeSegments[0] == segs[0];
    next, retired := Retire(cfg, e, grown, player);
    GrowThenRetire(segs, grown.activeSegments, retired);
  }

  /** The first half of a frame: the segment the observer is near the end of, built or not. */
  method Grow(cfg: Config, e: Engine, road: Road, player: Vec3, draws: seq<Draw>)
    returns (grown: Road, created: bool, used: nat)
    requires |road.activeSegments| >= 1
    requires road.currentSegmentIndex >= 1 && |road.controlPoints| >= 2
    requires cfg.subdivisions != 0
    requires |draws| >= Needed(road.currentSegmentIndex, |road.controlPoints|) && AllFit(cfg, draws)
    ensures var segs := road.activeSegments;
            created <==> e.distance(player, segs[|segs| - 1].endPosition) < 2.0 * cfg.maxSegmentDistance
    ensures created ==> used == Needed(road.currentSegmentIndex, |road.controlPoints|) && SpanAppended(cfg, e, road, grown)
    ensures !created ==> used == 0 && grown == road
    ensures AllFit(cfg, draws[..used]) && grown.controlPoints == AppendAll(cfg, e, road.controlPoints, draws[..used])
    ensures Valid(cfg, road) ==> Valid(cfg, grown)
  {
    var segs := road.activeSegments;
    var distToLastEnd := e.distance(player, segs[|segs| - 1].endPosition);
    grown := road;
    used := 0;
    created := distToLastEnd < 2.0 * cfg.maxSegmentDistance;
    if created {
      var rand;
      grown, rand, used := CreateNextSegment(cfg, e, road, draws);
      if Valid(cfg, road) {
        SpanAppendedKeepsValid(cfg, e, road, grown);
      }
    } else {
      AppendAllNone(cfg, e, road.controlPoints, draws);
    }
  }

  /** The second half of a frame: the front segment, retired when the observer is far past its end. */
  method Retire(cfg: Config, e: Engine, road: Road, player: Vec3) returns (next: Road, retired: bool)
    requires |road.activeSegments| >= 1
    ensures retired <==> e.distance(player, road.activeSegments[0].endPosition) > 2.0 * cfg.maxSegmentDistance
    ensures next == if retired then road.(activeSegments := road.activeSegments[1..]) else road
    ensures Valid(cfg, road) ==> Valid(cfg, next)
  {
    next := road;
    retired := e.distance(player, road.activeSegments[0].endPosition) > 2.0 * cfg.maxSegmentDistance;
    if retired {
      if Valid(cfg, road) {
        RetireKeepsValid(cfg, road);
      }
      next := road.(activeSegments := road.activeSegments[1..]);
    }
  }

  /**
   An observer at least two maximum steps from both ends of the window gets
   no new segment and loses the front one, so each such frame shrinks the
   window by one; a one-segment window is left empty.
   */
  method FarObserverDrains(cfg: Config, e: Engine, road: Road, player: Vec3, draws: seq<Draw>)
    returns (next: Road)
    requires |road.activeSegments| >= 1
    requires road.currentSegmentIndex >= 1 && |road.controlPoints| >= 2
    requires cfg.subdivisions != 0
    requires |draws| >= Needed(road.currentSegmentIndex, |road.controlPoints|) && AllFit(cfg, draws)
    requires var segs := road.activeSegments;
             && e.distance(player, segs[|segs| - 1].endPosition) >= 2.0 * cfg.maxSegmentDistance
             && e.distance(player, segs[0].endPosition) > 2.0 * cfg.maxSegmentDistance
    ensures |next.activeSegments| == |road.activeSegments| - 1
    ensures next.activeSegments == road.activeSegments[1..]
    ensures next.currentSegmentIndex == road.currentSegmentIndex && next.controlPoints == road.controlPoints
  {
    var created, retired, used;
    next, created, retired, used := Update(cfg, e, road, player, draws);
  }
}

=== FILE: catmull_rom.dfy ===
/**
 Closed-form uniform Catmull-Rom evaluation over one span `p0..p3`: the
 position and its analytic derivative, with `t` in [0, 1] running from `p1`
 to `p2`. The vector forms apply the scalar cubic to each coordinate, which is
 what the engine's component-wise vector arithmetic does.
 */
module CatmullRom {
  import opened Vectors

  /** Scalar Catmull-Rom position with the coefficients of `CatmullRomPos` in CatmullRomRoad.cs. */
  function Cubic(a: real, b: real, c: real, d: real, t: real): real {
    0.5 * (2.0 * b
           + (-a + c) * t
           + (2.0 * a - 5.0 * b + 4.0 * c - d) * (t * t)
           + (-a + 3.0 * b - 3.0 * c + d) * (t * t * t))
  }

  /** Scalar derivative of `Cubic` with respect to `t`. */
  function CubicSlope(a: real, b: real, c: real, d: real, t: real): real {
    0.5 * ((-a + c)
           + 2.0 * (2.0 * a - 5.0 * b + 4.0 * c - d) * t
           + 3.0 * (-a + 3.0 * b - 3.0 * c + d) * (t * t))
  }

  /** Position on the span; it interpolates the two inner control points. */
  function CatmullRomPos(p0: Vec3, p1: Vec3, p2: Vec3, p3: Vec3, t: real): (r: Vec3)
    ensures t == 0.0 ==> r == p1
    ensures t == 1.0 ==> r == p2
  {
    Vec3(Cubic(p0.x, p1.x, p2.x, p3.x, t),
         Cubic(p0.y, p1.y, p2.y, p3.y, t),
         Cubic(p0.z, p1.z, p2.z, p3.z, t))
  }

  /** Tangent on the span; at the ends it is half the chord over the neighbours. */
  function CatmullRomTangent(p0: Vec3, p1: Vec3, p2: Vec3, p3: Vec3, t: real): (r: Vec3)
    ensures t == 0.0 ==> r == Scale(0.5, Sub(p2, p0))
    ensures t == 1.0 ==> r == Scale(0.5, Sub(p3, p1))
  {
    Vec3(CubicSlope(p0.x, p1.x, p2.x, p3.x, t),
         CubicSlope(p0.y, p1.y, p2.y, p3.y, t),
         CubicSlope(p0.z, p1.z, p2.z, p3.z, t))
  }

  /** The second-order remainder of a first-order Taylor step of `Cubic`. */
  function TaylorRemainder(a: real, b: real, c: real, d: real, t: real, h: real): real {
    h * h * 0.5 * ((2.0 * a - 5.0 * b + 4.0 * c - d) + (-a + 3.0 * b - 3.0 * c + d) * (3.0 * t + h))
  }

  /**
   `CubicSlope` is the derivative of `Cubic`: the first-order Taylor step from
   `t` misses `Cubic(t + h)` by an exact multiple of `h * h`. Since the vector
   position and tangent are these scalars per coordinate, `CatmullRomTangent`
   is the derivative of `CatmullRomPos`.
   */
  lemma CubicSlopeIsDerivative(a: real, b: real, c: real, d: real, t: real, h: real)
    ensures Cubic(a, b, c, d, t + h) - Cubic(a, b, c, d, t) - h * CubicSlope(a, b, c, d, t)
            == TaylorRemainder(a, b, c, d, t, h)
  {
    var q := 2.0 * a - 5.0 * b + 4.0 * c - d;
    var k := -a + 3.0 * b - 3.0 * c + d;
    assert (t + h) * (t + h) - t * t == h * (2.0 * t + h);
    assert (t + h) * (t + h) * (t + h) - t * t * t == h * (3.0 * t * t + 3.0 * t * h + h * h);
    assert Cubic(a, b, c, d, t + h) - Cubic(a, b, c, d, t)
        == 0.5 * ((-a + c) * h + q * ((t + h) * (t + h) - t * t) + k * ((t + h) * (t + h) * (t + h) - t * t * t));
  }

  /**
   Linear precision: four equally spaced collinear control points give the
   straight segment from `p1` to `p1 + d`, traversed at constant velocity `d`.
   */
  lemma StraightSpan(p1: Vec3, d: Vec3, t: real)
    ensures CatmullRomPos(Sub(p1, d), p1, Add(p1, d), Add(p1, Scale(2.0, d)), t) == Add(p1, Scale(t, d))
    ensures CatmullRomTangent(Sub(p1, d), p1, Add(p1, d), Add(p1, Scale(2.0, d)), t) == d
  {
  }

  /** Reversing the control points traverses the same span backwards. */
  lemma Reversal(p0: Vec3, p1: Vec3, p2: Vec3, p3: Vec3, t: real)
    ensures CatmullRomPos(p3, p2, p1, p0, 1.0 - t) == CatmullRomPos(p0, p1, p2, p3, t)
  {
    assert (1.0 - t) * (1.0 - t) == 1.0 - 2.0 * t + t * t;
    assert (1.0 - t) * (1.0 - t) * (1.0 - t) == 1.0 - 3.0 * t + 3.0 * t * t - t * t * t;
  }
}

=== FILE: ribbon.dfy ===
/**
 Ribbon tessellation shared by both road generators. A span is sampled at
 `subdiv + 1` evenly spaced parameters; each sample contributes a left and a
 right vertex (the centre plus or minus a horizontal half-width offset) with
 UVs `(0, t)` and `(1, t)`, and every sample after the first closes a quad
 with the previous pair using two triangles.

 `RibbonMesh` is the closed form of the result; `BuildRibbon` is the loop the
 generators run, proved to produce exactly that mesh.
 */
module Ribbon {
  import opened Vectors

  /** Vertex positions, triangle index list (three entries per triangle) and UVs. */
  datatype Mesh = Mesh(vertices: seq<Vec3>, triangles: seq<int>, uvs: seq<Vec2>)

  /** A curve span by its position and unnormalised derivative at each parameter. */
  datatype Curve = Curve(pos: real -> Vec3, tangent: real -> Vec3)

  /** Curve parameter of sample `i`: `i * (1 / subdiv)`. */
  function SampleT(i: int, subdiv: int): (t: real)
    requires subdiv >= 1
    ensures i == 0 ==> t == 0.0
    ensures i == subdiv ==> t == 1.0
    ensures 0 <= i <= subdiv ==> 0.0 <= t <= 1.0
  {
    i as real * (1.0 / subdiv as real)
  }

  /**
   The horizontal "left" offset at a sample: the normalised `up x tangent`
   scaled to half the road width. It is level and square to the tangent.
   Despite its name it points to the traveller's right: heading along +z it
   is along +x, the engine's right, and the triangle winding follows from
   that side.
   */
  function LeftOffset(invLen: Vec3 -> real, tangent: Vec3, width: real): (r: Vec3)
    ensures r.y == 0.0
    ensures Dot(r, tangent) == 0.0
  {
    var dir := Normalize(invLen, tangent);
    Scale(width * 0.5, Normalize(invLen, Cross(Up, dir)))
  }

  /** Offset of sample `i`. */
  function SampleOffset(c: Curve, invLen: Vec3 -> real, width: real, subdiv: int, i: int): Vec3
    requires subdiv >= 1
  {
    LeftOffset(invLen, c.tangent(SampleT(i, subdiv)), width)
  }

  function LeftVertex(c: Curve, invLen: Vec3 -> real, width: real, subdiv: int, i: int): Vec3
    requires subdiv >= 1
  {
    Add(c.pos(SampleT(i, subdiv)), SampleOffset(c, invLen, width, subdiv, i))
  }

  function RightVertex(c: Curve, invLen: Vec3 -> real, width: real, subdiv: int, i: int): Vec3
    requires subdiv >= 1
  {
    Sub(c.pos(SampleT(i, subdiv)), SampleOffset(c, invLen, width, subdiv, i))
  }

  /** Vertex slot `k`: even slots are left vertices, odd slots right vertices, of sample `k / 2`. */
  function VertexAt(c: Curve, invLen: Vec3 -> real, width: real, subdiv: int, k: nat): Vec3
    requires subdiv >= 1
  {
    if k % 2 == 0 then LeftVertex(c, invLen, width, subdiv, k / 2)
    else RightVertex(c, invLen, width, subdiv, k / 2)
  }

  /** UV slot `k`: `u` is 0 on the left edge and 1 on the right, `v` is the sample's parameter. */
  function UvAt(subdiv: int, k: nat): Vec2
    requires subdiv >= 1
  {
    Vec2(if k % 2 == 0 then 0.0 else 1.0, SampleT(k / 2, subdiv))
  }

  /** The two triangles closing quad `q`, between samples `q` and `q + 1`. */
  function QuadTris(q: int): seq<int> {
    [2 * q, 2 * q + 1, 2 * q + 2, 2 * q + 3, 2 * q + 2, 2 * q + 1]
  }

  /** Triangle list of a strip of `n` quads: six indices per quad, all naming one of its `2n + 2` vertices. */
  function StripIndices(n: nat): (r: seq<int>)
    ensures |r| == 6 * n
    ensures forall k :: 0 <= k < |r| ==> 0 <= r[k] < 2 * n + 2
  {
    if n == 0 then [] else StripIndices(n - 1) + QuadTris(n - 1)
  }

  /**
   Closed form of the mesh the ribbon loop builds. A negative subdivision
   count makes the sample loop run zero times, leaving every buffer empty.
   */
  function RibbonMesh(c: Curve, invLen: Vec3 -> real, width: real, subdiv: int): (m: Mesh)
    requires subdiv != 0
    ensures |m.vertices| == (if subdiv < 0 then 0 else 2 * (subdiv + 1)) && |m.uvs| == |m.vertices|
    ensures |m.triangles| == (if subdiv < 0 then 0 else 6 * subdiv)
    ensures forall k :: 0 <= k < |m.triangles| ==> 0 <= m.triangles[k] < |m.vertices|
  {
    if subdiv < 0 then Mesh([], [], [])
    else
      Mesh(seq(2 * (subdiv + 1), k requires 0 <= k => VertexAt(c, invLen, width, subdiv, k)),
           StripIndices(subdiv),
           seq(2 * (subdiv + 1), k requires 0 <= k => UvAt(subdiv, k)))
  }

  /** Sample `i` of a mesh holds the left/right vertex pair and its UVs at slots `2i`, `2i + 1`. */
  ghost predicate SampleLaidOut(m: Mesh, c: Curve, invLen: Vec3 -> real, width: real, subdiv: int, i: int)
    requires subdiv >= 1
  {
    var t := SampleT(i, subdiv);
    && 0 <= 2 * i && 2 * i + 1 < |m.vertices| && 2 * i + 1 < |m.uvs|
    && m.vertices[2 * i] == LeftVertex(c, invLen, width, subdiv, i)
    && m.vertices[2 * i + 1] == RightVertex(c, invLen, width, subdiv, i)
    && m.uvs[2 * i] == Vec2(0.0, t)
    && m.uvs[2 * i + 1] == Vec2(1.0, t)
  }

  /**
   Every sample is laid out at slots `2i` (left, UV `(0, t)`) and `2i + 1`
   (right, UV `(1, t)`), the pair is symmetric about the centre point, and
   both vertices sit at the centre's height.
   */
  lemma RibbonLayout(c: Curve, invLen: Vec3 -> real, width: real, subdiv: int, i: int)
    requires subdiv >= 1 && 0 <= i <= subdiv
    ensures SampleLaidOut(RibbonMesh(c, invLen, width, subdiv), c, invLen, width, subdiv, i)
    ensures var m := RibbonMesh(c, invLen, width, subdiv);
            && Scale(0.5, Add(m.vertices[2 * i], m.vertices[2 * i + 1])) == c.pos(SampleT(i, subdiv))
            && m.vertices[2 * i].y == m.vertices[2 * i + 1].y == c.pos(SampleT(i, subdiv)).y
  {
    var m := RibbonMesh(c, invLen, width, subdiv);
    assert m.vertices[2 * i] == VertexAt(c, invLen, width, subdiv, 2 * i);
    assert m.vertices[2 * i + 1] == VertexAt(c, invLen, width, subdiv, 2 * i + 1);
    assert m.uvs[2 * i] == UvAt(subdiv, 2 * i);
    assert m.uvs[2 * i + 1] == UvAt(subdiv, 2 * i + 1);
  }

  /**
   When the normalised cross direction has unit length, the cross-section
   between a sample's two vertices is exactly the road width.
   */
  lemma CrossSectionWidth(c: Curve, invLen: Vec3 -> real, width: real, subdiv: int, i: int)
    requires subdiv >= 1
    requires var dir := Normalize(invLen, c.tangent(SampleT(i, subdiv)));
             SqNorm(Normalize(invLen, Cross(Up, dir))) == 1.0
    ensures SqNorm(Sub(LeftVertex(c, invLen, width, subdiv, i), RightVertex(c, invLen, width, subdiv, i)))
            == width * width
  {
    var n := Normalize(invLen, Cross(Up, Normalize(invLen, c.tangent(SampleT(i, subdiv)))));
    var o := SampleOffset(c, invLen, width, subdiv, i);
    assert o == Scale(width * 0.5, n);
    assert Sub(LeftVertex(c, invLen, width, subdiv, i), RightVertex(c, invLen, width, subdiv, i)) == Scale(width, n);
    assert SqNorm(Scale(width, n)) == width * width * SqNorm(n);
  }

  /** Quad `q` of a strip of `n` quads occupies index slots `6q .. 6q + 6`. */
  lemma {:induction false} StripQuad(n: nat, q: nat)
    requires q < n
    ensures 6 * q + 6 <= |StripIndices(n)|
    ensures StripIndices(n)[6 * q .. 6 * q + 6] == QuadTris(q)
  {
    if q < n - 1 {
      StripQuad(n - 1, q);
      assert StripIndices(n) == StripIndices(n - 1) + QuadTris(n - 1);
    }
  }

  /**
   The two triangles of quad `q`, emitted with sample `q + 1`, use exactly
   the vertices of samples `q` and `q + 1`, `{2q, 2q+1, 2q+2, 2q+3}`, and
   share the diagonal `2q+1`..`2q+2`.
   */
  lemma SampleTriangles(subdiv: nat, q: nat)
    requires q < subdiv
    ensures var tris := StripIndices(subdiv)[6 * q .. 6 * q + 6];
            && (forall k :: 0 <= k < 6 ==> tris[k] in {2 * q, 2 * q + 1, 2 * q + 2, 2 * q + 3})
            && (forall v :: v in {2 * q, 2 * q + 1, 2 * q + 2, 2 * q + 3} ==> v in tris)
            && 2 * q + 1 in tris[0..3] && 2 * q + 2 in tris[0..3]
            && 2 * q + 1 in tris[3..6] && 2 * q + 2 in tris[3..6]
  {
    StripQuad(subdiv, q);
    QuadUsesItsCorners(q);
  }

  /**
   Quad `q`'s two triangles use exactly its corners `2q .. 2q + 3`, and both
   contain the diagonal `2q + 1`..`2q + 2`.
   */
  lemma QuadUsesItsCorners(q: int)
    ensures var tris := QuadTris(q);
            && (forall k :: 0 <= k < 6 ==> tris[k] in {2 * q, 2 * q + 1, 2 * q + 2, 2 * q + 3})
            && (forall v :: v in {2 * q, 2 * q + 1, 2 * q + 2, 2 * q + 3} ==> v in tris)
            && 2 * q + 1 in tris[0..3] && 2 * q + 2 in tris[0..3]
            && 2 * q + 1 in tris[3..6] && 2 * q + 2 in tris[3..6]
  {
    var tris := QuadTris(q);
    assert tris[0..3] == [2 * q, 2 * q + 1, 2 * q + 2];
    assert tris[3..6] == [2 * q + 3, 2 * q + 2, 2 * q + 1];
  }

  /** With at least one quad, every vertex of the strip is used by some triangle. */
  lemma {:induction false} StripCoversVertices(n: nat)
    requires n >= 1
    ensures forall v :: 0 <= v < 2 * n + 2 ==> v in StripIndices(n)
  {
    if n == 1 {
      assert StripIndices(1) == QuadTris(0);
    } else {
      StripCoversVertices(n - 1);
      assert StripIndices(n) == StripIndices(n - 1) + QuadTris(n - 1);
      forall v | 0 <= v < 2 * n + 2
        ensures v in StripIndices(n)
      {
        if v < 2 * n {
          assert v in StripIndices(n - 1);
        } else {
          assert v in QuadTris(n - 1);
        }
      }
    }
  }

  /** Appending sample `i`'s vertex pair and UV pair extends a correct prefix of the layout by two slots. */
  lemma ExtendLayout(c: Curve, invLen: Vec3 -> real, width: real, subdiv: int, i: nat,
                     vertices: seq<Vec3>, uvs: seq<Vec2>)
    requires subdiv >= 1
    requires |vertices| == 2 * i && |uvs| == 2 * i
    requires forall k :: 0 <= k < 2 * i ==> vertices[k] == VertexAt(c, invLen, width, subdiv, k)
    requires forall k :: 0 <= k < 2 * i ==> uvs[k] == UvAt(subdiv, k)
    ensures var vs := vertices + [LeftVertex(c, invLen, width, subdiv, i), RightVertex(c, invLen, width, subdiv, i)];
            forall k :: 0 <= k < 2 * i + 2 ==> vs[k] == VertexAt(c, invLen, width, subdiv, k)
    ensures var us := uvs + [Vec2(0.0, SampleT(i, subdiv)), Vec2(1.0, SampleT(i, subdiv))];
            forall k :: 0 <= k < 2 * i + 2 ==> us[k] == UvAt(subdiv, k)
  {
    assert (2 * i) / 2 == i && (2 * i + 1) / 2 == i;
    assert (2 * i) % 2 == 0 && (2 * i + 1) % 2 == 1;
  }

  /**
   The tessellation loop: for `i = 0 .. subdiv`, evaluate the centre and the
   left offset at `t = i * step`, append the vertex pair and UVs, and for
   `i > 0` append the two triangles joining the new pair to the previous one.
   */
  method BuildRibbon(c: Curve, invLen: Vec3 -> real, width: real, subdiv: int) returns (m: Mesh)
    requires subdiv != 0
    ensures m == RibbonMesh(c, invLen, width, subdiv)
    ensures subdiv >= 1 ==> |m.vertices| == 2 * (subdiv + 1) && |m.uvs| == 2 * (subdiv + 1)
    ensures subdiv >= 1 ==> |m.triangles| == 6 * subdiv
    ensures subdiv < 0 ==> m.vertices == [] && m.uvs == [] && m.triangles == []
  {
    var vertices: seq<Vec3> := [];
    var triangles: seq<int> := [];
    var uvs: seq<Vec2> := [];
    var step := 1.0 / subdiv as real;
    var i := 0;
    while i <= subdiv
      invariant 0 <= i && (i <= subdiv + 1 || i == 0)
      invariant i > 0 ==> subdiv >= 1
      invariant |vertices| == 2 * i && |uvs| == 2 * i
      invariant triangles == StripIndices(if i == 0 then 0 else i - 1)
      invariant forall k :: 0 <= k < 2 * i ==> vertices[k] == VertexAt(c, invLen, width, subdiv, k)
      invariant forall k :: 0 <= k < 2 * i ==> uvs[k] == UvAt(subdiv, k)
    {
      var t := i as real * step;
      assert t == SampleT(i, subdiv);
      var centerPos := c.pos(t);
      var tangent := Normalize(invLen, c.tangent(t));
      var left := Scale(width * 0.5, Normalize(invLen, Cross(Up, tangent)));
      assert left == SampleOffset(c, invLen, width, subdiv, i);
      ExtendLayout(c, invLen, width, subdiv, i, vertices, uvs);
      vertices := vertices + [Add(centerPos, left), Sub(centerPos, left)];
      uvs := uvs + [Vec2(0.0, t), Vec2(1.0, t)];
      if i > 0 {
        var baseIndex := |vertices| - 2;
        var prevBaseIndex := baseIndex - 2;
        triangles := triangles + [prevBaseIndex, prevBaseIndex + 1, baseIndex,
                                  baseIndex + 1, baseIndex, prevBaseIndex + 1];
        assert triangles == StripIndices(i);
      }
      i := i + 1;
    }
    m := Mesh(vertices, triangles, uvs);
    if subdiv >= 1 {
      var r := RibbonMesh(c, invLen, width, subdiv);
      assert m.vertices == r.vertices;
      assert m.uvs == r.uvs;
    }
  }
}

=== FILE: segments.dfy ===
/**
 What both road generators share: the record kept per generated segment, the
 engine services they call but the model does not compute, and the FIFO
 window step their per-frame update performs.
 */
module Segments {
  import opened Vectors
  import opened Ribbon

  /**
   One generated road span. The engine object that owns the mesh is reduced
   to the mesh buffers themselves.
   */
  datatype SegmentData = SegmentData(startPosition: Vec3, endPosition: Vec3, endTangent: Vec3, mesh: Mesh)

  /**
   Engine services: the inverse length used by `normalized`, cosine and sine
   of an angle in degrees (behind the yaw quaternion), and `Vector3.Distance`.
   */
  datatype Engine = Engine(invLen: Vec3 -> real, cosDeg: real -> real, sinDeg: real -> real,
                           distance: (Vec3, Vec3) -> real)

  /** Every segment starts where the one before it ends. */
  ghost predicate Chained(segs: seq<SegmentData>) {
    forall i :: 0 < i < |segs| ==> segs[i].startPosition == segs[i - 1].endPosition
  }

  /**
   The window step of a frame: append what was created at the back, then
   drop the front segment when it is to be retired. Segments leave in the
   order they arrived and nothing else in the window moves.
   */
  function WindowStep(segs: seq<SegmentData>, created: seq<SegmentData>, retire: bool): seq<SegmentData>
    requires retire ==> |segs| + |created| >= 1
  {
    var grown := segs + created;
    if retire then grown[1..] else grown
  }

  /**
   A frame that appends at most one segment and then, when asked, drops the
   front one performs the window step, and the appended segment ends up last;
   the segments kept from before stay in order at the front.
   */
  lemma GrowThenRetire(segs: seq<SegmentData>, grown: seq<SegmentData>, retire: bool)
    requires |segs| <= |grown| <= |segs| + 1 && grown[..|segs|] == segs
    requires retire ==> |segs| >= 1
    ensures var next := if retire then grown[1..] else grown;
            && (|grown| > |segs| ==> |next| >= 1 && next[|next| - 1] == grown[|segs|])
            && next == WindowStep(segs, if |grown| > |segs| then [next[|next| - 1]] else [], retire)
            && (retire ==> next[..|segs| - 1] == segs[1..])
            && (!retire ==> next[..|segs|] == segs)
  {
    var next := if retire then grown[1..] else grown;
    if retire {
      assert next[..|segs| - 1] == grown[..|segs|][1..];
    }
    if |grown| > |segs| {
      assert grown == segs + [grown[|segs|]];
    } else {
      assert grown == segs + [];
    }
  }

  /** Appending a segment that starts at the last end, and retiring from the front, keep a window chained. */
  lemma WindowStepChained(segs: seq<SegmentData>, created: seq<SegmentData>, retire: bool)
    requires retire ==> |segs| + |created| >= 1
    requires Chained(segs) && Chained(created)
    requires |segs| > 0 && |created| > 0 ==> created[0].startPosition == segs[|segs| - 1].endPosition
    ensures Chained(WindowStep(segs, created, retire))
  {
    var grown := segs + created;
    assert Chained(grown) by {
      forall i | 0 < i < |grown|
        ensures grown[i].startPosition == grown[i - 1].endPosition
      {
        if i < |segs| {
          assert grown[i] == segs[i] && grown[i - 1] == segs[i - 1];
        } else if i == |segs| {
          assert grown[i] == created[0] && grown[i - 1] == segs[|segs| - 1];
        } else {
          assert grown[i] == created[i - |segs|] && grown[i - 1] == created[i - 1 - |segs|];
        }
      }
    }
  }
}

=== FILE: vectors.dfy ===
/**
 Real-valued 3D and 2D vectors standing in for the engine's single-precision
 `Vector3` and `Vector2`. Arithmetic is exact; the square root behind vector
 length is never computed: normalisation is a scalar multiple chosen by an
 opaque "inverse length" function supplied by the caller.
 */
module Vectors {

  datatype Vec3 = Vec3(x: real, y: real, z: real)

  datatype Vec2 = Vec2(u: real, v: real)

  const Zero := Vec3(0.0, 0.0, 0.0)
  const Up := Vec3(0.0, 1.0, 0.0)
  const Forward := Vec3(0.0, 0.0, 1.0)

  function Add(a: Vec3, b: Vec3): Vec3 {
    Vec3(a.x + b.x, a.y + b.y, a.z + b.z)
  }

  function Sub(a: Vec3, b: Vec3): Vec3 {
    Vec3(a.x - b.x, a.y - b.y, a.z - b.z)
  }

  function Scale(k: real, a: Vec3): Vec3 {
    Vec3(k * a.x, k * a.y, k * a.z)
  }

  function Dot(a: Vec3, b: Vec3): real {
    a.x * b.x + a.y * b.y + a.z * b.z
  }

  /** Squared Euclidean length; the model never takes the square root. */
  function SqNorm(a: Vec3): real {
    Dot(a, a)
  }

  /** The component formula of `Vector3.Cross` (the engine is left-handed; the formula is the same). */
  function Cross(a: Vec3, b: Vec3): (r: Vec3)
    ensures Dot(r, a) == 0.0 && Dot(r, b) == 0.0
  {
    Vec3(a.y * b.z - a.z * b.y, a.z * b.x - a.x * b.z, a.x * b.y - a.y * b.x)
  }

  /**
   The engine's `normalized`: the vector divided by its length, or the zero
   vector when it is too short. Both cases are a scalar multiple of the input;
   `invLen` says which multiple and is left uninterpreted.
   */
  function Normalize(invLen: Vec3 -> real, v: Vec3): Vec3 {
    Scale(invLen(v), v)
  }

  /** The vector with its height replaced, as in `p.y = h`. */
  function WithY(v: Vec3, h: real): Vec3 {
    Vec3(v.x, h, v.z)
  }
}

=== FILE: water.dfy ===
/**
 The water surface: a flat grid of `(gx + 1) x (gz + 1)` vertices spaced
 `spacing` apart, row by row along x, with UVs stretching over [0, 1] and two
 triangles per cell. The vertex positions are also kept as the undisplaced
 base copy that wave animation starts from.
 */
module Water {
  import opened Vectors

  datatype Option<T> = None | Some(value: T)

  /** An engine float as far as division produces it: a finite value, or a NaN or infinity from a zero divisor. */
  datatype Float = Finite(value: real) | NaN | PosInf | NegInf

  datatype Uv = Uv(u: Float, v: Float)

  datatype WaterMesh = WaterMesh(vertices: seq<Vec3>, baseVertices: seq<Vec3>, uvs: seq<Uv>, triangles: seq<int>)

  /** The zero value a fresh UV array holds. */
  const NoUv := Uv(Finite(0.0), Finite(0.0))

  /**
   `(float)a / b`: exact when `b` is non-zero (multiplying back by `b` gives
   `a`), otherwise NaN for `0 / 0` and an infinity carrying the sign of `a`.
   */
  function Quotient(a: int, b: int): (r: Float)
    ensures b != 0 ==> r.Finite? && r.value * b as real == a as real
    ensures b == 0 ==> (r.NaN? <==> a == 0)
    ensures b == 0 && a > 0 ==> r.PosInf?
    ensures b == 0 && a < 0 ==> r.NegInf?
  {
    if b != 0 then Finite(a as real / b as real)
    else if a == 0 then NaN
    else if a > 0 then PosInf
    else NegInf
  }

  /** Slot of grid point `(x, z)`: rows of `gx + 1` points, one row per z. */
  function Index(gx: int, x: int, z: int): int {
    z * (gx + 1) + x
  }

  /** Quotient and remainder recover the row and column of a slot. */
  lemma DivModIndex(w: int, z: int, x: int)
    requires w > 0 && 0 <= x < w && z >= 0
    ensures (z * w + x) / w == z && (z * w + x) % w == x
  {
    var a := z * w + x;
    var q, r := a / w, a % w;
    assert (q - z) * w == x - r;
    SmallMultiple(q - z, w);
  }

  lemma MulNonNegative(a: int, b: int)
    requires a >= 0 && b >= 0
    ensures a * b >= 0
  {
  }

  /** The only multiple of `w` strictly between `-w` and `w` is zero. */
  lemma SmallMultiple(d: int, w: int)
    requires w > 0 && -w < d * w < w
    ensures d == 0
  {
    if d > 0 {
      MulNonNegative(d - 1, w);
    } else if d < 0 {
      MulNonNegative(-d - 1, w);
    }
  }

  /** Splits `k` below `n * w` into a quotient below `n` and a remainder below `w`. */
  lemma RowAndColumn(w: int, n: int, k: int) returns (q: int, r: int)
    requires w > 0 && 0 <= k < n * w
    ensures 0 <= q < n && 0 <= r < w && k == q * w + r
  {
    q, r := k / w, k % w;
    if q >= n {
      MulNonNegative(q - n, w);
    }
  }

  /** A point strictly inside the grid has a slot strictly inside the vertex buffer. */
  lemma IndexBound(gx: int, gz: int, x: int, z: int)
    requires 0 <= x <= gx && 0 <= z <= gz
    ensures 0 <= Index(gx, x, z) < (gx + 1) * (gz + 1)
  {
    MulNonNegative(z, gx + 1);
    MulNonNegative(gz - z, gx + 1);
    assert (gz - z) * (gx + 1) == gz * (gx + 1) - z * (gx + 1);
    assert (gx + 1) * (gz + 1) == gz * (gx + 1) + (gx + 1);
  }

  /** Vertex slot `k` of a grid with `gx >= 0`: column `k % (gx + 1)`, row `k / (gx + 1)`, at height 0. */
  function GridVertex(gx: int, spacing: real, k: int): Vec3
    requires gx >= 0
  {
    Vec3((k % (gx + 1)) as real * spacing, 0.0, (k / (gx + 1)) as real * spacing)
  }

  /** UV slot `k`: column over `gx` and row over `gz`. */
  function GridUv(gx: int, gz: int, k: int): Uv
    requires gx >= 0
  {
    Uv(Quotient(k % (gx + 1), gx), Quotient(k / (gx + 1), gz))
  }

  /**
   The six indices of cell `c` (cells counted row by row, `gx` per row):
   triangle bottom-left, top-left, bottom-right, then bottom-right, top-left,
   top-right. The bottom-left slot of cell `c` is `c + c / gx`, one slot
   further per completed row.
   */
  function CellTris(gx: int, c: int): seq<int>
    requires gx > 0
  {
    var bottomLeft := c + c / gx;
    var topLeft := bottomLeft + (gx + 1);
    [bottomLeft, topLeft, bottomLeft + 1, bottomLeft + 1, topLeft, topLeft + 1]
  }

  /** Triangle slot `k`: entry `k % 6` of cell `k / 6`. */
  function GridTriangle(gx: int, k: int): int
    requires gx > 0
  {
    CellTris(gx, k / 6)[k % 6]
  }

  /**
   The buffers the builder leaves, or `None` when a buffer length is
   negative (the array allocation fails). Vertex and UV slots are written
   only when both sizes are non-negative, triangles only when both are
   positive; untouched slots keep the zero value.
   */
  function WaterGrid(gx: int, gz: int, spacing: real): (r: Option<WaterMesh>)
    ensures r.None? <==> (gx + 1) * (gz + 1) < 0 || gx * gz * 6 < 0
    ensures r.Some? ==> && |r.value.vertices| == (gx + 1) * (gz + 1)
                        && |r.value.uvs| == |r.value.vertices|
                        && r.value.baseVertices == r.value.vertices
                        && |r.value.triangles| == gx * gz * 6
  {
    var n := (gx + 1) * (gz + 1);
    var m := gx * gz * 6;
    if n < 0 || m < 0 then None
    else
      var written := gx >= 0 && gz >= 0;
      var vs := seq(n, k => if written then GridVertex(gx, spacing, k) else Zero);
      var uvs := seq(n, k => if written then GridUv(gx, gz, k) else NoUv);
      var tris := seq(m, k => if gx > 0 && gz > 0 then GridTriangle(gx, k) else 0);
      Some(WaterMesh(vs, vs, uvs, tris))
  }

  /**
   The six triangle slots of cell `(x, z)` start at `6 * (z * gx + x)`, fit
   in the buffer, and hold bottom-left, top-left, bottom-right, bottom-right,
   top-left, top-right of that cell.
   */
  lemma CellSlots(gx: int, gz: int, x: int, z: int, at: int)
    requires 0 <= x < gx && 0 <= z < gz && at == 6 * (z * gx + x)
    ensures 0 <= at && at + 6 <= gx * gz * 6
    ensures var bottomLeft := Index(gx, x, z);
            var topLeft := bottomLeft + (gx + 1);
            && GridTriangle(gx, at) == bottomLeft
            && GridTriangle(gx, at + 1) == topLeft
            && GridTriangle(gx, at + 2) == bottomLeft + 1
            && GridTriangle(gx, at + 3) == bottomLeft + 1
            && GridTriangle(gx, at + 4) == topLeft
            && GridTriangle(gx, at + 5) == topLeft + 1
  {
    var c := z * gx + x;
    MulNonNegative(gz - z - 1, gx);
    assert gx * gz == (z + 1) * gx + (gz - z - 1) * gx;
    DivModIndex(gx, z, x);
    DivModIndex(6, c, 0);
    DivModIndex(6, c, 1);
    DivModIndex(6, c, 2);
    DivModIndex(6, c, 3);
    DivModIndex(6, c, 4);
    DivModIndex(6, c, 5);
  }

  /** Grid point `(x, z)` has a slot in the buffers, and the closed forms there give its position and UV. */
  lemma GridSlot(gx: int, gz: int, spacing: real, x: int, z: int)
    requires 0 <= x <= gx && 0 <= z <= gz
    ensures 0 <= Index(gx, x, z) < (gx + 1) * (gz + 1)
    ensures GridVertex(gx, spacing, Index(gx, x, z)) == Vec3(x as real * spacing, 0.0, z as real * spacing)
    ensures GridUv(gx, gz, Index(gx, x, z)) == Uv(Quotient(x, gx), Quotient(z, gz))
  {
    IndexBound(gx, gz, x, z);
    DivModIndex(gx + 1, z, x);
  }

  /** Writes row `z` of the vertex pass: the `gx + 1` slots from `start` on. */
  method FillVertexRow(gx: int, gz: int, gridSpacing: real, z: int, ghost start: int,
                       vertices: array<Vec3>, baseVertices: array<Vec3>, uvs: array<Uv>)
    requires 0 <= z <= gz && 0 <= gx && start == z * (gx + 1)
    requires vertices.Length == (gx + 1) * (gz + 1)
    requires baseVertices.Length == vertices.Length && uvs.Length == vertices.Length
    requires vertices != baseVertices
    requires forall k :: 0 <= k < vertices.Length ==>
               vertices[k] == (if k < start then GridVertex(gx, gridSpacing, k) else Zero)
    requires forall k :: 0 <= k < uvs.Length ==> uvs[k] == (if k < start then GridUv(gx, gz, k) else NoUv)
    requires forall k :: 0 <= k < vertices.Length ==> baseVertices[k] == vertices[k]
    modifies vertices, baseVertices, uvs
    ensures forall k :: 0 <= k < vertices.Length ==>
              vertices[k] == (if k < start + gx + 1 then GridVertex(gx, gridSpacing, k) else Zero)
    ensures forall k :: 0 <= k < uvs.Length ==>
              uvs[k] == (if k < start + gx + 1 then GridUv(gx, gz, k) else NoUv)
    ensures forall k :: 0 <= k < vertices.Length ==> baseVertices[k] == vertices[k]
  {
    var x := 0;
    while x <= gx
      invariant 0 <= x <= gx + 1
      invariant forall k :: 0 <= k < vertices.Length ==>
                  vertices[k] == (if k < start + x then GridVertex(gx, gridSpacing, k) else Zero)
      invariant forall k :: 0 <= k < uvs.Length ==>
                  uvs[k] == (if k < start + x then GridUv(gx, gz, k) else NoUv)
      invariant forall k :: 0 <= k < vertices.Length ==> baseVertices[k] == vertices[k]
    {
      var index := z * (gx + 1) + x;
      GridSlot(gx, gz, gridSpacing, x, z);
      vertices[index] := Vec3(x as real * gridSpacing, 0.0, z as real * gridSpacing);
      baseVertices[index] := vertices[index];
      uvs[index] := Uv(Quotient(x, gx), Quotient(z, gz));
      x := x + 1;
    }
  }

  /** The vertex pass: every grid point's slot gets its position, its base copy and its UV. */
  method FillVertices(gx: int, gz: int, gridSpacing: real, vertices: array<Vec3>, baseVertices: array<Vec3>,
                      uvs: array<Uv>)
    requires vertices.Length == (gx + 1) * (gz + 1) >= 0
    requires baseVertices.Length == vertices.Length && uvs.Length == vertices.Length
    requires vertices != baseVertices
    requires forall k :: 0 <= k < vertices.Length ==> vertices[k] == Zero && baseVertices[k] == Zero
    requires forall k :: 0 <= k < uvs.Length ==> uvs[k] == NoUv
    modifies vertices, baseVertices, uvs
    ensures forall k :: 0 <= k < vertices.Length ==>
              vertices[k] == (if gx >= 0 && gz >= 0 then GridVertex(gx, gridSpacing, k) else Zero)
    ensures forall k :: 0 <= k < uvs.Length ==>
              uvs[k] == (if gx >= 0 && gz >= 0 then GridUv(gx, gz, k) else NoUv)
    ensures forall k :: 0 <= k < vertices.Length ==> baseVertices[k] == vertices[k]
  {
    if gx < 0 || gz < 0 {
      // The row loop `z <= gz` or the column loop `x <= gx` never runs, so nothing is written.
      return;
    }
    ghost var done := 0;
    var z := 0;
    while z <= gz
      invariant 0 <= z <= gz + 1
      invariant done == z * (gx + 1)
      invariant forall k :: 0 <= k < vertices.Length ==>
                  vertices[k] == (if k < done then GridVertex(gx, gridSpacing, k) else Zero)
      invariant forall k :: 0 <= k < uvs.Length ==> uvs[k] == (if k < done then GridUv(gx, gz, k) else NoUv)
      invariant forall k :: 0 <= k < vertices.Length ==> baseVertices[k] == vertices[k]
    {
      FillVertexRow(gx, gz, gridSpacing, z, done, vertices, baseVertices, uvs);
      done := done + gx + 1;
      z := z + 1;
    }
    assert done == vertices.Length;
  }

  /** Writes the six indices of cell `(x, z)` at `at`, the cell's first triangle slot. */
  method FillCell(gx: int, gz: int, x: int, z: int, triangles: array<int>, at: int)
    requires 0 <= x < gx && 0 <= z < gz && at == 6 * (z * gx + x)
    requires triangles.Length == gx * gz * 6
    requires forall k :: 0 <= k < triangles.Length ==>
               triangles[k] == (if k < at then GridTriangle(gx, k) else 0)
    modifies triangles
    ensures forall k :: 0 <= k < triangles.Length ==>
              triangles[k] == (if k < at + 6 then GridTriangle(gx, k) else 0)
  {
    var bottomLeft := z * (gx + 1) + x;
    var bottomRight := bottomLeft + 1;
    var topLeft := bottomLeft + (gx + 1);
    var topRight := topLeft + 1;
    CellSlots(gx, gz, x, z, at);
    triangles[at] := bottomLeft;
    triangles[at + 1] := topLeft;
    triangles[at + 2] := bottomRight;
    triangles[at + 3] := bottomRight;
    triangles[at + 4] := topLeft;
    triangles[at + 5] := topRight;
    forall k | 0 <= k < triangles.Length
      ensures triangles[k] == (if k < at + 6 then GridTriangle(gx, k) else 0)
    {
      if at <= k < at + 6 {
        var j := k - at;
        assert j == 0 || j == 1 || j == 2 || j == 3 || j == 4 || j == 5;
      }
    }
  }

  /** Writes row `z` of the triangle pass: six indices for each of its `gx` cells, from `triIndex` on. */
  method FillTriangleRow(gx: int, gz: int, z: int, triangles: array<int>, triIndex: int) returns (next: int)
    requires 0 <= z < gz && 0 < gx && triIndex == 6 * (z * gx)
    requires triangles.Length == gx * gz * 6
    requires forall k :: 0 <= k < triangles.Length ==>
               triangles[k] == (if k < triIndex then GridTriangle(gx, k) else 0)
    modifies triangles
    ensures next == triIndex + 6 * gx
    ensures forall k :: 0 <= k < triangles.Length ==>
              triangles[k] == (if k < next then GridTriangle(gx, k) else 0)
  {
    next := triIndex;
    var x := 0;
    while x < gx
      invariant 0 <= x <= gx
      invariant next == triIndex + 6 * x
      invariant forall k :: 0 <= k < triangles.Length ==>
                  triangles[k] == (if k < next then GridTriangle(gx, k) else 0)
    {
      FillCell(gx, gz, x, z, triangles, next);
      next := next + 6;
      x := x + 1;
    }
  }

  /** The triangle pass: six indices per cell, written through a running cursor. */
  method FillTriangles(gx: int, gz: int, triangles: array<int>) returns (triIndex: int)
    requires triangles.Length == gx * gz * 6 >= 0
    requires forall k :: 0 <= k < triangles.Length ==> triangles[k] == 0
    modifies triangles
    ensures triIndex == if gx > 0 && gz > 0 then triangles.Length else 0
    ensures forall k :: 0 <= k < triangles.Length ==>
              triangles[k] == (if gx > 0 && gz > 0 then GridTriangle(gx, k) else 0)
  {
    triIndex := 0;
    if gx <= 0 || gz <= 0 {
      // The row loop `z < gz` or the cell loop `x < gx` never runs, so nothing is written.
      return;
    }
    var z := 0;
    while z < gz
      invariant 0 <= z <= gz
      invariant triIndex == 6 * (z * gx)
      invariant forall k :: 0 <= k < triangles.Length ==>
                  triangles[k] == (if k < triIndex then GridTriangle(gx, k) else 0)
    {
      triIndex := FillTriangleRow(gx, gz, z, triangles, triIndex);
      z := z + 1;
    }
    assert triIndex == gx * gz * 6;
  }

  /**
   The builder: allocate the four buffers (failing on a negative length),
   run the vertex pass and the triangle pass, and hand the buffers over.
   */
  method GenerateWaterMesh(gridSizeX: int, gridSizeZ: int, gridSpacing: real) returns (r: Option<WaterMesh>)
    ensures r == WaterGrid(gridSizeX, gridSizeZ, gridSpacing)
    ensures r.Some? ==> |r.value.vertices| == (gridSizeX + 1) * (gridSizeZ + 1)
                        && |r.value.triangles| == gridSizeX * gridSizeZ * 6
  {
    var gx, gz := gridSizeX, gridSizeZ;
    var n := (gx + 1) * (gz + 1);
    var m := gx * gz * 6;
    if n < 0 || m < 0 {
      return None;
    }
    var vertices := new Vec3[n](_ => Zero);
    var uvs := new Uv[n](_ => NoUv);
    var baseVertices := new Vec3[n](_ => Zero);
    var triangles := new int[m](_ => 0);
    FillVertices(gx, gz, gridSpacing, vertices, baseVertices, uvs);
    var triIndex := FillTriangles(gx, gz, triangles);
    r := Some(WaterMesh(vertices[..], baseVertices[..], uvs[..], triangles[..]));
    assert r.value == WaterGrid(gx, gz, gridSpacing).value;
  }

  /** Buffer lengths of a grid with non-negative sizes; the base copy equals the vertices. */
  ghost predicate GridShape(m: WaterMesh, gx: int, gz: int) {
    && gx >= 0 && gz >= 0
    && |m.vertices| == (gx + 1) * (gz + 1) && |m.uvs| == |m.vertices| && m.baseVertices == m.vertices
    && |m.triangles| == gx * gz * 6
  }

  /** Every grid point's slot holds its position `(x, 0, z) * spacing`. */
  ghost predicate GridPositions(m: WaterMesh, gx: int, gz: int, spacing: real) {
    forall x, z :: 0 <= x <= gx && 0 <= z <= gz ==>
      0 <= Index(gx, x, z) < |m.vertices| && m.vertices[Index(gx, x, z)] == Vec3(x as real * spacing, 0.0, z as real * spacing)
  }

  /** Every grid point's slot holds its UV `(x / gx, z / gz)`. */
  ghost predicate GridUvs(m: WaterMesh, gx: int, gz: int) {
    forall x, z :: 0 <= x <= gx && 0 <= z <= gz ==>
      0 <= Index(gx, x, z) < |m.uvs| && m.uvs[Index(gx, x, z)] == Uv(Quotient(x, gx), Quotient(z, gz))
  }

  /** Slot `j` of the six triangle slots of cell `(x, z)`. */
  function TriSlot(gx: int, x: int, z: int, j: int): int {
    6 * (z * gx + x) + j
  }

  /**
   Corner `j` of cell `(x, z)` in the order bottom-left, top-left,
   bottom-right, bottom-right, top-left, top-right.
   */
  function CellCorner(gx: int, x: int, z: int, j: int): int
    requires 0 <= j < 6
  {
    var bottomLeft := Index(gx, x, z);
    var topLeft := Index(gx, x, z + 1);
    [bottomLeft, topLeft, bottomLeft + 1, bottomLeft + 1, topLeft, topLeft + 1][j]
  }

  /** Each cell's six triangle slots exist and hold its corners. */
  ghost predicate GridCells(m: WaterMesh, gx: int, gz: int) {
    forall x, z, j :: 0 <= x < gx && 0 <= z < gz && 0 <= j < 6 ==>
      0 <= TriSlot(gx, x, z, j) < |m.triangles| && m.triangles[TriSlot(gx, x, z, j)] == CellCorner(gx, x, z, j)
  }

  /** The buffers of a grid with non-negative sizes. */
  ghost predicate IsGrid(m: WaterMesh, gx: int, gz: int, spacing: real) {
    GridShape(m, gx, gz) && GridPositions(m, gx, gz, spacing) && GridUvs(m, gx, gz) && GridCells(m, gx, gz)
  }

  /** With non-negative sizes the builder succeeds, and its buffers are the grid. */
  lemma WaterGridIsGrid(gx: int, gz: int, spacing: real)
    requires gx >= 0 && gz >= 0
    ensures WaterGrid(gx, gz, spacing).Some?
    ensures IsGrid(WaterGrid(gx, gz, spacing).value, gx, gz, spacing)
  {
    MulNonNegative(gx + 1, gz + 1);
    MulNonNegative(gx, gz);
    var m := WaterGrid(gx, gz, spacing).value;
    forall x, z | 0 <= x <= gx && 0 <= z <= gz
      ensures 0 <= Index(gx, x, z) < |m.vertices| && |m.uvs| == |m.vertices|
      ensures m.vertices[Index(gx, x, z)] == Vec3(x as real * spacing, 0.0, z as real * spacing)
      ensures m.uvs[Index(gx, x, z)] == Uv(Quotient(x, gx), Quotient(z, gz))
    {
      GridSlot(gx, gz, spacing, x, z);
    }
    forall x, z, j | 0 <= x < gx && 0 <= z < gz && 0 <= j < 6
      ensures 0 <= TriSlot(gx, x, z, j) < |m.triangles|
      ensures m.triangles[TriSlot(gx, x, z, j)] == CellCorner(gx, x, z, j)
    {
      CellCornerSlot(gx, gz, x, z, j);
    }
  }

  /** The closed form of the triangle pass puts corner `j` of cell `(x, z)` in that cell's slot `j`. */
  lemma CellCornerSlot(gx: int, gz: int, x: int, z: int, j: int)
    requires 0 <= x < gx && 0 <= z < gz && 0 <= j < 6
    ensures 0 <= TriSlot(gx, x, z, j) < gx * gz * 6
    ensures GridTriangle(gx, TriSlot(gx, x, z, j)) == CellCorner(gx, x, z, j)
  {
    var at := TriSlot(gx, x, z, 0);
    CellSlots(gx, gz, x, z, at);
    CornerSlots(gx, gz, x, z);
    assert TriSlot(gx, x, z, j) == at + j;
    assert j == 0 || j == 1 || j == 2 || j == 3 || j == 4 || j == 5;
  }

  /** Every slot of the vertex buffer is the slot of some grid point. */
  lemma SlotIsPoint(gx: int, gz: int, k: int) returns (x: int, z: int)
    requires gx >= 0 && 0 <= k < (gx + 1) * (gz + 1)
    ensures 0 <= x <= gx && 0 <= z <= gz && Index(gx, x, z) == k
  {
    z, x := RowAndColumn(gx + 1, gz + 1, k);
  }

  /** Distinct grid points have distinct slots, so the vertex pass writes each slot once. */
  lemma IndexInjective(gx: int, x: int, z: int, x': int, z': int)
    requires 0 <= x <= gx && 0 <= x' <= gx && 0 <= z && 0 <= z'
    requires Index(gx, x, z) == Index(gx, x', z')
    ensures x == x' && z == z'
  {
    DivModIndex(gx + 1, z, x);
    DivModIndex(gx + 1, z', x');
  }

  /** Normal of triangle `(a, b, c)` in the engine's vertex order: `(b - a) x (c - a)`. */
  function TriangleNormal(a: Vec3, b: Vec3, c: Vec3): Vec3 {
    Cross(Sub(b, a), Sub(c, a))
  }

  /** The corner slots of cell `(x, z)`: right is one slot on, top is one row on. */
  lemma CornerSlots(gx: int, gz: int, x: int, z: int)
    requires 0 <= x < gx && 0 <= z < gz
    ensures Index(gx, x + 1, z) == Index(gx, x, z) + 1
    ensures Index(gx, x, z + 1) == Index(gx, x, z) + (gx + 1)
    ensures Index(gx, x + 1, z + 1) == Index(gx, x, z) + (gx + 1) + 1
  {
  }

  /**
   Cell `(x, z)` owns triangle slots `6 (z gx + x) ..` holding its corners
   in the order bottom-left, top-left, bottom-right, bottom-right, top-left,
   top-right: the two triangles share the diagonal bottom-right/top-left.
   */
  lemma CellTriangles(m: WaterMesh, gx: int, gz: int, x: int, z: int)
    requires GridShape(m, gx, gz) && GridCells(m, gx, gz)
    requires 0 <= x < gx && 0 <= z < gz
    ensures var t := 6 * (z * gx + x);
            var bottomLeft := Index(gx, x, z);
            var topLeft := Index(gx, x, z + 1);
            && 0 <= t && t + 6 <= |m.triangles|
            && m.triangles[t..t + 6] == [bottomLeft, topLeft, bottomLeft + 1, bottomLeft + 1, topLeft, topLeft + 1]
            && m.triangles[t + 1] == m.triangles[t + 4] && m.triangles[t + 2] == m.triangles[t + 3]
  {
    var t := TriSlot(gx, x, z, 0);
    var bottomLeft := Index(gx, x, z);
    var topLeft := Index(gx, x, z + 1);
    assert m.triangles[TriSlot(gx, x, z, 0)] == CellCorner(gx, x, z, 0) == bottomLeft;
    assert m.triangles[TriSlot(gx, x, z, 1)] == CellCorner(gx, x, z, 1) == topLeft;
    assert m.triangles[TriSlot(gx, x, z, 2)] == CellCorner(gx, x, z, 2) == bottomLeft + 1;
    assert m.triangles[TriSlot(gx, x, z, 3)] == CellCorner(gx, x, z, 3) == bottomLeft + 1;
    assert m.triangles[TriSlot(gx, x, z, 4)] == CellCorner(gx, x, z, 4) == topLeft;
    assert m.triangles[TriSlot(gx, x, z, 5)] == CellCorner(gx, x, z, 5) == topLeft + 1;
    assert m.triangles[t..t + 6] == [m.triangles[t], m.triangles[t + 1], m.triangles[t + 2],
                                     m.triangles[t + 3], m.triangles[t + 4], m.triangles[t + 5]];
  }

  /**
   Both triangles of the square with bottom-left corner `(a, 0, b)` and side
   `s`, listed in the builder's corner order, have normal `(0, s^2, 0)`.
   */
  lemma QuadNormals(a: real, b: real, s: real)
    ensures var bottomLeft := Vec3(a, 0.0, b);
            var bottomRight := Vec3(a + s, 0.0, b);
            var topLeft := Vec3(a, 0.0, b + s);
            var topRight := Vec3(a + s, 0.0, b + s);
            && TriangleNormal(bottomLeft, topLeft, bottomRight) == Vec3(0.0, s * s, 0.0)
            && TriangleNormal(bottomRight, topLeft, topRight) == Vec3(0.0, s * s, 0.0)
  {
  }

  lemma StepScale(i: int, s: real)
    ensures (i + 1) as real * s == i as real * s + s
  {
  }

  /**
   Both triangles of cell `(x, z)` face the same way: their normals are the
   same upward vector, so the surface has one consistent winding.
   */
  lemma CellWinding(m: WaterMesh, gx: int, gz: int, spacing: real, x: int, z: int)
    requires GridShape(m, gx, gz) && GridPositions(m, gx, gz, spacing)
    requires 0 <= x < gx && 0 <= z < gz
    ensures var bottomLeft := Index(gx, x, z);
            var topLeft := Index(gx, x, z + 1);
            && 0 <= bottomLeft && topLeft + 1 < |m.vertices|
            && TriangleNormal(m.vertices[bottomLeft], m.vertices[topLeft], m.vertices[bottomLeft + 1])
               == Vec3(0.0, spacing * spacing, 0.0)
            && TriangleNormal(m.vertices[bottomLeft + 1], m.vertices[topLeft], m.vertices[topLeft + 1])
               == Vec3(0.0, spacing * spacing, 0.0)
  {
    var bottomLeft := Index(gx, x, z);
    var topLeft := Index(gx, x, z + 1);
    var a, b := x as real * spacing, z as real * spacing;
    assert m.vertices[bottomLeft] == Vec3(a, 0.0, b);
    assert m.vertices[bottomLeft + 1] == Vec3(a + spacing, 0.0, b) by {
      CornerSlots(gx, gz, x, z);
      StepScale(x, spacing);
    }
    assert m.vertices[topLeft] == Vec3(a, 0.0, b + spacing) by {
      StepScale(z, spacing);
    }
    assert m.vertices[topLeft + 1] == Vec3(a + spacing, 0.0, b + spacing) by {
      CornerSlots(gx, gz, x, z);
      StepScale(x, spacing);
      StepScale(z, spacing);
    }
    QuadNormals(a, b, spacing);
  }

  /** Every triangle entry names an existing vertex. */
  lemma TrianglesInRange(m: WaterMesh, gx: int, gz: int, spacing: real)
    requires IsGrid(m, gx, gz, spacing)
    ensures forall k :: 0 <= k < |m.triangles| ==> 0 <= m.triangles[k] < |m.vertices|
  {
    if gx == 0 || gz == 0 {
      assert |m.triangles| == 0;
    } else {
      forall k | 0 <= k < |m.triangles|
        ensures 0 <= m.triangles[k] < |m.vertices|
      {
        TriangleInRange(m, gx, gz, k);
      }
    }
  }

  lemma TriangleInRange(m: WaterMesh, gx: int, gz: int, k: int)
    requires GridShape(m, gx, gz) && GridCells(m, gx, gz) && gx > 0 && gz > 0
    requires 0 <= k < |m.triangles|
    ensures 0 <= m.triangles[k] < |m.vertices|
  {
    var c, j := RowAndColumn(6, gx * gz, k);
    var z, x := RowAndColumn(gx, gz, c);
    assert k == TriSlot(gx, x, z, j);
    CornerSlots(gx, gz, x, z);
    IndexBound(gx, gz, x, z);
    IndexBound(gx, gz, x + 1, z + 1);
  }

  /** With positive sizes every UV is finite and lies in the unit square. */
  lemma UvInUnitSquare(m: WaterMesh, gx: int, gz: int)
    requires GridShape(m, gx, gz) && GridUvs(m, gx, gz) && gx > 0 && gz > 0
    ensures forall k :: 0 <= k < |m.uvs| ==>
              && m.uvs[k].u.Finite? && 0.0 <= m.uvs[k].u.value <= 1.0
              && m.uvs[k].v.Finite? && 0.0 <= m.uvs[k].v.value <= 1.0
  {
    forall k | 0 <= k < |m.uvs|
      ensures m.uvs[k].u.Finite? && 0.0 <= m.uvs[k].u.value <= 1.0
      ensures m.uvs[k].v.Finite? && 0.0 <= m.uvs[k].v.value <= 1.0
    {
      var x, z := SlotIsPoint(gx, gz, k);
      UnitRatio(x, gx);
      UnitRatio(z, gz);
    }
  }

  lemma UnitRatio(a: int, b: int)
    requires 0 <= a <= b && b > 0
    ensures Quotient(a, b).Finite? && 0.0 <= Quotient(a, b).value <= 1.0
  {
    assert (a as real / b as real) * (b as real) == a as real;
  }

  /** A grid zero cells wide gives every vertex the UV column NaN (0 / 0). */
  lemma ZeroWidthUv(m: WaterMesh, gz: int)
    requires GridShape(m, 0, gz) && GridUvs(m, 0, gz)
    ensures |m.uvs| == gz + 1 && forall k :: 0 <= k < |m.uvs| ==> m.uvs[k].u == NaN
  {
    forall k | 0 <= k < |m.uvs|
      ensures m.uvs[k].u == NaN
    {
      var x, z := SlotIsPoint(0, gz, k);
    }
  }
}
